=== FILE: README.md ===
# data_synth in Dafny

A model of the two pipelines of `data_synth` and the settings store they share.

- **The extractor** (`ObjectCropper`) reads YOLO-style annotation lines, one per object (`class xc yc w h`, normalised to the image). It turns each line into a pixel box: scale, truncate toward zero, clamp, reject empty boxes. It then writes the crop under a name that records the image stem, the line index and the class id.
- **The compositor** (`ImageSynthesizer`) picks a background. It then draws a number of objects; for each one it:
  - picks an object crop;
  - transforms and resizes the crop, rejecting it when it is too small or too large;
  - samples up to 50 positions, until one does not collide with an object already placed;
  - pastes the object and records a normalised label.

  It writes the composed image and its labels only when at least one object was placed.
- **The settings store** (`Config`) merges a custom YAML mapping recursively over the defaults and answers `[]` and `get` lookups.

Modules:

- `Outcomes`: `Option`, `Result` and the Python exceptions the code can raise.
- `Numeric`: `int()` on floats, which truncates toward zero.
- `Text`:
  - `str.split`/`strip`;
  - `str(n)`;
  - `float()` on decimal literals;
  - `rfind`;
  - `os.path.splitext`.
- `Draws`: `random.randint` and `random.choice`.
- `Raster`: images as rows of BGR pixels, slice paste and crop.
- `Boxes`: the overlap test.
- `Naming`: crop and output file names, and the class id parsed back from a crop name.
- `Cropping`: the extractor.
- `Synthesis`: the compositor.
- `Config`: the settings store.

How the model treats the inputs:

- **Randomness:** the caller supplies each random call as a raw natural number. `RandInt(lo, hi, raw)` reduces it into the call's range and can reach every value of that range.
- **Collaborators:** `cv2.imread`, `_apply_transformations` and the pixel values of `cv2.resize` are function-typed fields of `Synthesis.Collaborators`. A successful read or transform yields a non-empty, well-formed image.
- **Floats:** floats are reals. `Synthesis.LabelReadBack` and `Cropping.PixelCorners` are exact facts about the reals. With doubles, a product at cropping.py:56-59 can round just below a whole number, so `int()` at cropping.py:61-64 can land one pixel short of that edge.
- **Error paths follow the code:**
  - An empty background list raises `IndexError` outside the `try` in `_process_single_image` and ends the run (`Synthesis.Outcome.Crashed`).
  - An empty object list raises inside the `try`; the error is caught and reported, and the run goes on (`Failed`).
  - Only an annotation line with fewer than five fields is skipped. A non-numeric value among fields two to five makes `float()` raise `ValueError`, which nothing in the extractor catches. `Cropping.ProcessLabelLine` returns that error, and the loop over the file's lines stops there.

## Model

| member | source | states |
|---|---|---|
| Boxes.CheckOverlap | src/synthesis.py:174-183 | the test reports a collision iff some existing box is not strictly left of, right of, above or below the new one, which is the collision predicate the placement loop uses; an empty list gives no collision |
| Boxes.OverlapsIsNotApart | src/synthesis.py:181 | the per-box test reports a collision exactly when the two boxes are not strictly apart along either axis |
| Boxes.OverlapsSymmetric | src/synthesis.py:181 | the test gives the same answer whichever of the two boxes is the new one |
| Boxes.OverlapsIffCommonPoint | src/synthesis.py:181 | for boxes with ordered corners, a collision is reported exactly when the closed rectangles share a point |
| Boxes.TouchingEdgesCollide | src/synthesis.py:181 | boxes that only touch along an edge are still reported as colliding |
| Boxes.ApartRegionsDisjoint | src/synthesis.py:181 | two boxes the test lets through have disjoint paste regions |
| Boxes.AppendApart | src/synthesis.py:103 | appending a box that collides with no earlier box keeps the list pairwise non-colliding |
| Boxes.PairwiseApartDistinct | src/synthesis.py:72-73 | in a pairwise non-colliding list, no pixel lies in the paste regions of two different boxes |
| Synthesis.ResizedSize | src/synthesis.py:158-163 | an accepted size is the truncated scaled size, with sides in [10, max_w] and [10, max_h] |
| Synthesis.ResizeAcceptedIff | src/synthesis.py:155-165 | the object is kept iff both scaled sides, as reals, lie in [10, max+1): truncation lets max+0.9 through |
| Synthesis.Resize | src/synthesis.py:155-165 | `None` exactly when the size check fails; otherwise a non-empty image of exactly the accepted size |
| Synthesis.FinalObject | src/synthesis.py:91-96 | a transformed and resized object fits the canvas and is at least 10 pixels on each side |
| Synthesis.Candidate | src/synthesis.py:167-172 | the drawn corner lies in [0, img_w-obj_w] x [0, img_h-obj_h], and the box has the object's extent |
| Synthesis.CandidateWithin | src/synthesis.py:100-101 | a candidate for a non-empty object satisfies 0 <= x1 < x2 <= img_w and 0 <= y1 < y2 <= img_h |
| Synthesis.CandidateReaches | src/synthesis.py:167-172 | every position that keeps the object inside the canvas can be drawn |
| Synthesis.FirstFree | src/synthesis.py:99-109 | the chosen attempt is below 50, does not collide, and every earlier attempt collides; `None` means all remaining attempts collide |
| Synthesis.FirstFreeOnEmpty | src/synthesis.py:99-107 | with no placed boxes the first attempt is taken |
| Synthesis.TryPlaceObject | src/synthesis.py:78-109 | a placement lies inside the canvas, collides with no existing box, carries an image of the box's size, and its label is the box normalised with the class id parsed from the file name |
| Synthesis.TryPlaceObjectAttempts | src/synthesis.py:94-109 | for a resized object, `None` iff all 50 candidates collide. Otherwise the box is the first candidate that does not collide: every earlier candidate collides, and the image is the resized object. A rejected size gives `None` |
| Synthesis.RejectedSizeNotPlaced | src/synthesis.py:94-96 | an object rejected by the size check is never placed |
| Synthesis.LabelOf | src/synthesis.py:185-192 | the label carries the given class id. Each extent times the canvas side is the box's side, and twice each centre times the canvas side is the sum of the box's two edges |
| Synthesis.LabelInverse | src/synthesis.py:185-191 | the label `LabelOf` computes gives back its box over the reals: x1 = (xc - w/2)*img_w, x2 = (xc + w/2)*img_w, and likewise along y |
| Synthesis.LabelInUnitRange | src/synthesis.py:185-191 | for a box inside the canvas all four label values lie in [0, 1] and both extents are positive |
| Synthesis.LabelReadBack | src/cropping.py:56-70 | the extractor reading an unrounded label back gets the pasted box, except that an edge on the right or bottom border is clamped to the last column or row |
| Synthesis.CornersFromEdges | src/cropping.py:56-64 | an annotation whose scaled edges are whole numbers has exactly those numbers as its pixel corners |
| Synthesis.EmptySceneComposed | src/synthesis.py:53-56 | the bare background with no boxes satisfies the loop invariant |
| Synthesis.PasteShowsObject | src/synthesis.py:72 | after a paste, the box shows the pasted object pixel for pixel |
| Synthesis.PasteKeepsShowing | src/synthesis.py:72 | a paste leaves every box it does not collide with showing what that box showed |
| Synthesis.ExtendComposed | src/synthesis.py:68-74 | `Extend`, which models these lines, pastes a non-colliding placement and appends its box, label and object, and this keeps the loop invariant: the boxes stay pairwise apart and inside the canvas, each box shows its object and has its label, and every pixel outside all boxes is the background's |
| Synthesis.Step | src/synthesis.py:61-74 | one iteration keeps the invariant. An unreadable object changes nothing. For a readable object: if `_try_place_object` finds no place, nothing changes; if it finds one, the scene is extended by exactly that placement, with one more box and one more label |
| Synthesis.Compose | src/synthesis.py:60-74 | the loop raises `IndexError` iff it runs at least once over an empty object pool; otherwise it keeps the invariant, only appends boxes and labels, and adds at most one box per iteration |
| Synthesis.SynthesizeObjects | src/synthesis.py:51-76 | fails iff max_objects < 1 (`ValueError`) or the object pool is empty (`IndexError`); otherwise the scene satisfies the invariant and holds at most num_objects <= max_objects labels |
| Synthesis.SynthesizeObjectsPlacesFirst | src/synthesis.py:58-74 | when the first object picked can be read and its resized size fits the background, it is placed at the first attempt on the bare background, so the scene has at least one label |
| Synthesis.SceneLabelsNormalised | src/synthesis.py:105-106 | every label of a composed scene has values in [0, 1] and a class id parsed from a file of the object pool |
| Synthesis.ProcessSingleImage | src/synthesis.py:31-49 | crashes with `IndexError` iff there are no backgrounds; a caught failure needs max_objects < 1 or an empty pool; a write needs at least one label and uses the output names of a background |
| Synthesis.ProcessSingleImageReachesWritten | src/synthesis.py:33-46 | an iteration writes output whenever the background can be read and the first object picked can be read and fits it |
| Synthesis.ProcessSingleImageWrites | src/synthesis.py:36-46 | for the chosen background: nothing is done iff it is unreadable; a caught failure iff the composition fails; a write iff the composition places at least one object, and it writes the composed canvas and the scene's labels |
| Synthesis.Run | src/synthesis.py:25-29 | `synthesize_images` has at most num_images iterations; `Synthesis.RunAt` and `Synthesis.RunLength` state which |
| Synthesis.RunStepsAt | src/synthesis.py:28-29 | entry k of the run is iteration k's outcome, and only the last entry can be a crash |
| Synthesis.RunStepsLength | src/synthesis.py:28-29 | a run with no crash performs every iteration; a crash on the first iteration ends the run |
| Synthesis.RunAt | src/synthesis.py:28-29 | entry k of `synthesize_images` is `_process_single_image` for index k |
| Synthesis.RunLength | src/synthesis.py:25-33 | with no backgrounds the run stops with `IndexError` on its first iteration; with backgrounds it performs all num_images iterations |
| Synthesis.RunOutputsDistinct | src/synthesis.py:194-198 | no two iterations of a run write the same image file or the same label file |
| Raster.Paste | src/synthesis.py:72 | the slice assignment writes the object's pixels into rows [y, y+h) and columns [x, x+w), and every other pixel keeps its value |
| Raster.Crop | src/cropping.py:75 | `img[y1:y2, x1:x2]` has size (x2-x1) x (y2-y1) and the pixels of that region |
| Raster.PasteCropIdentity | src/cropping.py:75 | pasting a crop back where it was cut from leaves the image unchanged |
| Raster.PasteIdempotent | src/synthesis.py:72 | pasting the same object at the same place twice is the same as pasting it once |
| Draws.RandIntChecked | src/synthesis.py:58 | `random.randint(1, max_objects)` raises `ValueError` iff the range is empty, and otherwise returns a value in the range |
| Draws.RandIntReaches | src/synthesis.py:170-172 | every value of a `randint` range is produced by some draw |
| Draws.Choice | src/synthesis.py:33 | `random.choice` raises `IndexError` iff the list is empty, and otherwise returns one of its elements |
| Draws.ChoiceReaches | src/synthesis.py:61 | every element of a non-empty list can be chosen |
| Naming.ClassIdOf | src/synthesis.py:105 | the parsed class id is a dot-free prefix of the text after the last `_class`, ending at its first dot |
| Naming.ClassIdRoundTrip | src/cropping.py:78 | parsing a name built by `CropName` gives back its class id whenever that id contains neither `_class` nor a dot |
| Naming.CropNameInjective | src/cropping.py:78 | within one image, a crop name built by `CropName` determines the line index and the class id |
| Naming.OutputImageNameInjective | src/synthesis.py:197 | an output image name built by `OutputImageName` determines the iteration index and the background name |
| Naming.OutputLabelNameInjective | src/synthesis.py:198 | a label file name built by `OutputLabelName` determines the iteration index |
| Naming.OutputLabelNameOfExtended | src/synthesis.py:197-198 | for `stem.ext` the image keeps its name and the label file is named after the same stem with `.txt` |
| Text.SplitOfStrip | src/cropping.py:48 | `line.strip().split()` equals `line.split()` |
| Text.SplitWords | src/cropping.py:48 | every part of `str.split()` is non-empty and free of whitespace |
| Text.SplitJoinSpaced | src/cropping.py:48 | splitting words joined by single spaces gives the words back |
| Text.NatToStringValue | src/cropping.py:78 | the digits of `str(n)` read back as n |
| Text.NatToStringInjective | src/cropping.py:78 | `str` is injective on non-negative integers |
| Text.ParseFloat | src/cropping.py:53 | `float()` accepts only a non-empty token made of digits, dots, signs and exponent letters |
| Text.ParseFloatLiteral | src/cropping.py:53 | every token of the decimal-literal grammar (`Text.WellFormedLiteral`: optional sign, digits with at most one dot and at least one digit, optional `e`/`E` exponent with optional sign) is accepted, and reads as ±(whole + frac / 10^len(frac)) · 10^exponent |
| Text.ParseFloatOnlyLiterals | src/cropping.py:53 | conversely, every token `float()` accepts spells such a literal and reads as its value |
| Text.ParseFloatDecimal | src/cropping.py:53 | `float("a.b")` for digit strings a and b, not both empty, is a + b / 10^len(b); so `0.481250` reads as 0.48125 |
| Text.ParseFloatScaled | src/cropping.py:53 | appending `e±k` to a literal multiplies what it reads by 10^k, or divides it by 10^k for a negative exponent |
| Text.FractionValueQuotient | src/cropping.py:53 | the digits after the dot read as the integer they spell over 10 to the number of digits |
| Text.ParseFloatOfNat | src/cropping.py:53 | `float(str(n)) == n` |
| Text.ParseFloatNegative | src/cropping.py:53 | a leading minus sign negates the value `float()` reads, and rejects what it rejects |
| Text.StemOfExtended | src/synthesis.py:198 | `os.path.splitext` splits a dot-free extension off a stem that is not all dots |
| Numeric.Trunc | src/cropping.py:61-64 | `int()` rounds toward zero: the result is within 1 of the value and not farther from zero |
| Numeric.TruncBelow | src/synthesis.py:162 | for a positive bound k, int(r) < k iff r < k |
| Numeric.TruncAbove | src/synthesis.py:162 | for a non-negative bound k, int(r) > k iff r >= k+1 |
| Cropping.ParseParts | src/cropping.py:48-53 | fewer than five parts gives no annotation; otherwise `ValueError` iff one of parts 2 to 5 is not a number; the class id is the first part and later parts are ignored |
| Cropping.ParseAnnotation | src/cropping.py:48 | the annotation of a line depends only on its whitespace-separated parts |
| Cropping.ExtraPartsIgnored | src/cropping.py:52-53 | parts after the fifth do not change the annotation |
| Cropping.PixelCorners | src/cropping.py:56-64 | each corner is `int()` of the centre minus or plus half the extent, scaled by the image size |
| Cropping.ClampBox | src/cropping.py:66-70 | after clamping 0 <= x1, 0 <= y1, x2 <= w-1, y2 <= h-1; a corner already in range is unchanged; a negative x1 or y1 becomes 0 and an x2 or y2 beyond the last column or row becomes w-1 or h-1 |
| Cropping.ClampIdempotent | src/cropping.py:66-70 | clamping twice is clamping once |
| Cropping.CropBoxInside | src/cropping.py:66-75 | a box that passes the degenerate check lies inside the image with non-empty extent |
| Cropping.CropOf | src/cropping.py:72-79 | no crop iff the clamped box is empty in either direction; otherwise the crop is the end-exclusive region of that box, named after the stem, line index and class id |
| Cropping.ProcessLabelLine | src/cropping.py:46-79 | a line raises only `ValueError`, and a crop it yields is the crop of its annotation under the name for its line index |
| Cropping.ProcessLabelLineCases | src/cropping.py:48-73 | how each outcome of a line follows from its parts: short lines and degenerate boxes give nothing, non-numeric values raise |
| Cropping.FullImageBox | src/cropping.py:56-70 | the annotation 0.5 0.5 1 1 on a w x h image gives the box (0, 0, w-1, h-1) |
| Cropping.FullImageLine | src/cropping.py:46-79 | the line `c 0.5 0.5 1 1` on an image at least 2 x 2 yields the crop (0, 0, w-1, h-1): the whole image but its last column and row |
| Cropping.NarrowImageNoCrop | src/cropping.py:67-73 | on an image one pixel wide no crop is ever written, whatever the annotation |
| Cropping.CropClassIdRecoverable | src/cropping.py:52-78 | the compositor parses back, from a crop's name, the first part of the line that produced it |
| Cropping.CollectCrops | src/cropping.py:43-44 | the loop over lines collects at most one crop per line |
| Cropping.CollectCropsSound | src/cropping.py:43-44 | every collected crop was yielded by some line |
| Cropping.CollectCropsFailure | src/cropping.py:43-44 | the loop ends without error iff no line raises |
| Cropping.CollectCropsStops | src/cropping.py:43-44 | the loop stops at a line that raises: the outcome does not depend on the lines after it |
| Cropping.CollectCropsFirstError | src/cropping.py:43-44 | at the first raising line the loop ends with that line's error, after collecting every crop of the lines before it |
| Cropping.CollectCropsBefore | src/cropping.py:43-44 | no crop comes from a line at or after a raising one |
| Cropping.CollectCropsComplete | src/cropping.py:43-44 | when no line raises, every crop a line yields is collected |
| Cropping.CollectCropsOrdered | src/cropping.py:43-44 | crops are collected in line order |
| Cropping.Enumerate | src/cropping.py:43 | `enumerate(lines)` has one entry per line |
| Cropping.EnumeratePrefix | src/cropping.py:43 | enumerating the first n lines gives the first n entries |
| Cropping.EnumerateAt | src/cropping.py:43-44 | entry i is the line processor applied to line i with index i |
| Cropping.ProcessImage | src/cropping.py:27-44 | a missing label file or an unreadable image writes nothing; otherwise at most one crop per line |
| Cropping.ProcessImageSound | src/cropping.py:27-44 | every crop written for an image is the crop of the line whose index it records |
| Cropping.ProcessImageFailure | src/cropping.py:43-44 | processing an image stops with an error iff some line raises |
| Cropping.ProcessImageStops | src/cropping.py:43-44 | the lines after one that raises are never processed: the result equals that of the file cut after the raising line |
| Cropping.ProcessImageNoCropAfterError | src/cropping.py:43-44 | no crop is written for a line at or after one that raises |
| Cropping.ProcessImageFirstError | src/cropping.py:43-44 | at the first raising line, processing ends with that line's error, and every crop an earlier line yields has been written |
| Cropping.ProcessImageComplete | src/cropping.py:43-44 | when no line raises, every line that yields a crop has it written |
| Cropping.ProcessImageOrdered | src/cropping.py:43-44 | the crops of one image are written in line order |
| Cropping.CropNamesDistinct | src/cropping.py:43-78 | the crops written for one image all have different file names |
| Config.DeepUpdate | src/config.py:21-26 | an empty update changes nothing; the only error is `TypeError`, and only for a non-empty update; merging into a mapping gives a mapping |
| Config.DeepUpdateEntries | src/config.py:21-26 | the merged keys are the union of both key sets; absent keys keep their value; a non-mapping value, or a mapping under a new key, is stored as is; a mapping under an existing key is merged recursively |
| Config.LeafUpdateFails | src/config.py:22-26 | a non-empty update into a value that is not a dict raises `TypeError` |
| Config.NestedFailurePropagates | src/config.py:23-24 | a failure while merging below one key fails the whole merge |
| Config.CompatibleIffOk | src/config.py:21-26 | the merge succeeds iff no non-empty nested mapping meets a non-dict value |
| Config.SelfUpdate | src/config.py:21-26 | merging a mapping into itself gives it back |
| Config.DeepUpdateIdempotent | src/config.py:21-26 | applying the same update twice is the same as applying it once |
| Config.Load | src/config.py:6-19 | no custom file gives the defaults; a custom file that is not a mapping raises `AttributeError`; a mapping succeeds exactly when its merge over the defaults does, and the settings are then the merged mapping |
| Config.LoadKeepsDefaults | src/config.py:6-26 | a loaded custom mapping keeps every default key it does not name, and the keys are those of both |
| Config.GetItem | src/config.py:28-29 | `[]` raises `KeyError` iff the key is absent, and otherwise returns the stored value |
| Config.Get | src/config.py:31-32 | `get` returns the default for an absent key and the stored value otherwise |
| Config.GetAgreesWithGetItem | src/config.py:28-32 | `get` agrees with `[]` where `[]` succeeds and falls back to the default exactly where it raises |

## Left out

- `_rotate_image` and `_adjust_image_color`: trigonometry, `cv2.warpAffine`, `convertScaleAbs` and HSV conversion. `_apply_transformations` is an opaque collaborator. The only assumption is that it returns a non-empty, well-formed image.
- The computation of `scale_factor`: a `random.uniform` area ratio and `np.sqrt`. Each object draw carries the factor as a real.
- The pixel values of `cv2.resize`: a collaborator. Only the output size is modelled.
- The distribution of `random.choice`, `randint` and `uniform`: draws are raw numbers supplied by the caller. No distributional claim is made.
- File and image I/O: `cv2.imread`/`imwrite`, `os.listdir`, `os.makedirs`, `open`, `os.path.exists`, and YAML loading.
  - Readers are parameters.
  - The extractor takes the label file's lines and the decoded image as optional inputs.
  - The settings store takes the parsed YAML trees.
- The image-extension filters of `crop_objects_from_dataset` and `_get_valid_images`: directory listing. The model starts from the lists of names.
- The six-decimal formatting of label values: labels are four reals and a class id. `Synthesis.LabelReadBack` is stated for the unrounded values.
- The `print` in the broad `except` of `_process_single_image`: only whether the iteration failed, and with which exception, is modelled.
- Text.ParseFloat: accepts only decimal literals (`Text.WellFormedLiteral`): an optional sign, then digits with at most one dot and at least one digit (`5`, `5.`, `.5`, `5.25`), then an optional `e`/`E` exponent with an optional sign.
  - Python's `float` also accepts `inf`, `nan`, `infinity`, underscores between digits, and surrounding whitespace. Those spellings read as `ValueError` here.
  - Tokens from `split()` carry no whitespace.
  - For `nan` the outcome is the same as in Python, because `int(nan)` raises `ValueError`.
  - Underscored literals such as `1_0` are valid in Python and are rejected here.
  - Non-ASCII digits and whitespace are not modelled.
- Cropping.ProcessLabelLine: floats are unbounded reals, so overflow to infinity is not modelled.
  - Python reads a literal beyond the double range (`1e999`), or `inf`, as infinity. `int()` at cropping.py:61-64 then raises `OverflowError`, which is not caught, and the extraction ends.
  - Here `1e999` is a finite real, and its box is clamped.
    - A huge centre clamps to a degenerate box, so the line is skipped and the loop goes on.
    - A huge extent clamps the box along its own axis to the whole image except its last column (for a width) or last row (for a height). A crop is written when the other axis also gives a non-empty span.
  - `inf` is rejected with `ValueError`.
  - `PyError` has no `OverflowError`.
- Config.DeepUpdate: settings are trees, not graphs.
  - `yaml.safe_load` returns one shared dict for a YAML anchor and all its aliases, and `_deep_update` writes into it in place. An update through one alias therefore shows through the others: defaults `{a: &n {x: 1}, b: *n}` merged with `{a: {x: 2}}` also set `b.x` to 2.
  - The model assumes alias-free settings files. `Config.LoadKeepsDefaults` and `Config.DeepUpdateEntries` hold only for those.
- Config.DeepUpdate: on `TypeError`, Python has already merged the earlier keys into the dict in place. The model returns only the error, because the exception propagates out of `Config(...)` and the object is never used.
- YAML keys are strings and non-mapping values are opaque leaves. The merge never looks inside those values.
- `src/main.py` (command-line wiring) and `setup.py` (packaging) are not part of this model.

=== FILE: boxes.dfy ===
/**
 Axis-aligned pixel boxes `(x1, y1, x2, y2)` and the overlap test the
 placement engine uses to keep pasted objects apart.
 */
module Boxes {

  datatype Box = Box(x1: int, y1: int, x2: int, y2: int)

  /** Corners in order. */
  predicate Proper(b: Box)
  {
    b.x1 <= b.x2 && b.y1 <= b.y2
  }

  /** The closed rectangle of `b` contains `(x, y)`. */
  predicate Covers(b: Box, x: int, y: int)
  {
    b.x1 <= x <= b.x2 && b.y1 <= y <= b.y2
  }

  /** The pixels a paste at `b` writes: columns `[x1, x2)`, rows `[y1, y2)`. */
  predicate InRegion(b: Box, x: int, y: int)
  {
    b.x1 <= x < b.x2 && b.y1 <= y < b.y2
  }

  /** `b` lies strictly left of, right of, above or below `e`. */
  predicate StrictlyApart(b: Box, e: Box)
  {
    b.x2 < e.x1 || e.x2 < b.x1 || b.y2 < e.y1 || e.y2 < b.y1
  }

  /** The per-box condition of `_check_overlap`: `n` collides with `e`. */
  predicate Overlaps(n: Box, e: Box)
  {
    !(n.x2 < e.x1 || n.x1 > e.x2 || n.y2 < e.y1 || n.y1 > e.y2)
  }

  /** `n` collides with some box of `existing`. */
  predicate CollidesWithAny(n: Box, existing: seq<Box>)
  {
    exists i :: 0 <= i < |existing| && Overlaps(n, existing[i])
  }

  /** `_check_overlap(new_box, existing_boxes)`: true as soon as one box collides. */
  method CheckOverlap(n: Box, existing: seq<Box>) returns (hit: bool)
    ensures hit <==> exists i :: 0 <= i < |existing| && !StrictlyApart(n, existing[i])
    ensures hit == CollidesWithAny(n, existing)
  {
    var k := 0;
    while k < |existing|
      invariant 0 <= k <= |existing|
      invariant forall i :: 0 <= i < k ==> StrictlyApart(n, existing[i])
    {
      var e := existing[k];
      OverlapsIsNotApart(n, e);
      if !(n.x2 < e.x1 || n.x1 > e.x2 || n.y2 < e.y1 || n.y1 > e.y2) {
        return true;
      }
      k := k + 1;
    }
    return false;
  }

  /** The overlap test is the negation of strict separation. */
  lemma OverlapsIsNotApart(n: Box, e: Box)
    ensures Overlaps(n, e) <==> !StrictlyApart(n, e)
  {
  }

  /** The test does not depend on which box is the new one. */
  lemma OverlapsSymmetric(a: Box, b: Box)
    ensures Overlaps(a, b) <==> Overlaps(b, a)
  {
  }

  /** For boxes with ordered corners the test reports a collision exactly when
      the closed rectangles share a point; so touching edges count. */
  lemma OverlapsIffCommonPoint(a: Box, b: Box)
    requires Proper(a) && Proper(b)
    ensures Overlaps(a, b) <==> exists x, y :: Covers(a, x, y) && Covers(b, x, y)
  {
    if Overlaps(a, b) {
      var x := if a.x1 >= b.x1 then a.x1 else b.x1;
      var y := if a.y1 >= b.y1 then a.y1 else b.y1;
      assert Covers(a, x, y) && Covers(b, x, y);
    }
  }

  /** Edge contact: a box whose right edge equals another's left edge, with
      overlapping row ranges, is reported as colliding. */
  lemma TouchingEdgesCollide(a: Box, b: Box)
    requires Proper(a) && Proper(b)
    requires a.x2 == b.x1
    requires a.y1 <= b.y2 && b.y1 <= a.y2
    ensures Overlaps(a, b)
  {
  }

  /** Boxes the test lets through have disjoint paste regions. */
  lemma ApartRegionsDisjoint(a: Box, b: Box, x: int, y: int)
    requires !Overlaps(a, b)
    requires InRegion(a, x, y)
    ensures !InRegion(b, x, y)
  {
  }

  /** Every later box was checked against every earlier one. */
  ghost predicate PairwiseApart(boxes: seq<Box>)
  {
    forall i, j :: 0 <= i < j < |boxes| ==> !Overlaps(boxes[j], boxes[i])
  }

  /** Appending a box that collides with none keeps the list pairwise apart. */
  lemma AppendApart(boxes: seq<Box>, b: Box)
    requires PairwiseApart(boxes)
    requires !CollidesWithAny(b, boxes)
    ensures PairwiseApart(boxes + [b])
  {
  }

  /** In a pairwise-apart list no two distinct entries collide, in either order,
      so no pixel lies in two paste regions. */
  lemma PairwiseApartDistinct(boxes: seq<Box>, i: int, j: int, x: int, y: int)
    requires PairwiseApart(boxes)
    requires 0 <= i < |boxes| && 0 <= j < |boxes| && i != j
    ensures !Overlaps(boxes[i], boxes[j])
    ensures InRegion(boxes[i], x, y) ==> !InRegion(boxes[j], x, y)
  {
    if i > j {
      assert !Overlaps(boxes[i], boxes[j]);
    } else {
      assert !Overlaps(boxes[j], boxes[i]);
    }
  }
}

=== FILE: config.dfy ===
/**
 The settings store: a tree of YAML nodes, the recursive merge that lays a
 custom settings file over the defaults, and the two lookups.
 */
module Config {
  import opened Outcomes

  /** A YAML node: a mapping, or anything else (a scalar, a list, `null`),
      kept as its text since the merge never looks inside it. */
  datatype Value = Leaf(text: string) | Node(entries: map<string, Value>)

  /** Key `k` of `update` holds a mapping and `k` is already present in `m`:
      the merge recurses there instead of overwriting. */
  predicate Descends(m: map<string, Value>, update: map<string, Value>, k: string)
  {
    k in update && update[k].Node? && k in m
  }

  /** `_deep_update(original, update)`. An empty update changes nothing, whatever
      `original` is; a non-empty one needs `original` to be a dict, otherwise the
      first `key in original` or `original[key] = value` raises `TypeError`. Every
      key of `update` then either recurses (a mapping over an existing key) or
      overwrites; keys absent from `update` are kept. Python mutates in place, so a
      failure leaves a partly merged dict behind; the model returns the error. */
  function DeepUpdate(original: Value, update: map<string, Value>): (r: Result<Value>)
    ensures |update| == 0 ==> r == Ok(original)
    ensures r.Err? ==> r.error == TypeError && |update| > 0
    ensures r.Ok? && original.Node? ==> r.value.Node?
    decreases original
  {
    if |update| == 0 then Ok(original)
    else
      match original
      case Leaf(_) => Err(TypeError)
      case Node(m) =>
        if exists k | k in update && Descends(m, update, k) :: DeepUpdate(m[k], update[k].entries).Err?
        then Err(TypeError)
        else Ok(Node(map k | k in m.Keys + update.Keys ::
                       if Descends(m, update, k) then DeepUpdate(m[k], update[k].entries).value
                       else if k in update then update[k]
                       else m[k]))
  }

  /** After a successful merge into a dict, the keys are those of both sides; a
      key absent from the update keeps its value; a key whose update is not a
      mapping, or is a mapping for a key not yet present, takes the update's value
      as is; and a mapping over an existing key is merged into it. */
  lemma DeepUpdateEntries(m: map<string, Value>, update: map<string, Value>, k: string)
    requires DeepUpdate(Node(m), update).Ok?
    ensures var r := DeepUpdate(Node(m), update).value;
      && r.entries.Keys == m.Keys + update.Keys
      && (k in m && k !in update ==> r.entries[k] == m[k])
      && (k in update && !Descends(m, update, k) ==> r.entries[k] == update[k])
      && (Descends(m, update, k) ==> DeepUpdate(m[k], update[k].entries) == Ok(r.entries[k]))
  {
  }

  /** Merging a non-empty update into a value that is not a dict raises. */
  lemma LeafUpdateFails(text: string, update: map<string, Value>)
    requires |update| > 0
    ensures DeepUpdate(Leaf(text), update) == Err(TypeError)
  {
  }

  /** A failure below one key makes the whole merge fail. */
  lemma NestedFailurePropagates(m: map<string, Value>, update: map<string, Value>, k: string)
    requires Descends(m, update, k) && DeepUpdate(m[k], update[k].entries).Err?
    ensures DeepUpdate(Node(m), update) == Err(TypeError)
  {
  }

  /** A merge in which no key meets a non-dict under a non-empty mapping succeeds. */
  ghost predicate Compatible(original: Value, update: map<string, Value>)
    decreases original
  {
    |update| == 0 ||
    (original.Node? &&
     forall k :: Descends(original.entries, update, k) ==> Compatible(original.entries[k], update[k].entries))
  }

  lemma {:induction false} CompatibleIffOk(original: Value, update: map<string, Value>)
    ensures DeepUpdate(original, update).Ok? <==> Compatible(original, update)
    decreases original
  {
    if |update| > 0 && original.Node? {
      var m := original.entries;
      forall k | Descends(m, update, k)
        ensures DeepUpdate(m[k], update[k].entries).Ok? <==> Compatible(m[k], update[k].entries)
      {
        CompatibleIffOk(m[k], update[k].entries);
      }
    }
  }

  /** Merging a mapping into itself gives it back. */
  lemma {:induction false} SelfUpdate(e: map<string, Value>)
    ensures DeepUpdate(Node(e), e) == Ok(Node(e))
    decreases Node(e)
  {
    if |e| > 0 {
      forall k | Descends(e, e, k)
        ensures DeepUpdate(e[k], e[k].entries) == Ok(e[k])
      {
        SelfUpdate(e[k].entries);
      }
      var r := DeepUpdate(Node(e), e);
      assert r.Ok?;
      assert r.value.entries == e;
    }
  }

  /** Applying the same update twice is the same as applying it once. */
  lemma {:induction false} DeepUpdateIdempotent(original: Value, update: map<string, Value>)
    requires DeepUpdate(original, update).Ok?
    ensures DeepUpdate(DeepUpdate(original, update).value, update) == DeepUpdate(original, update)
    decreases original
  {
    if |update| > 0 {
      var m := original.entries;
      var w := DeepUpdate(original, update).value;
      var m2 := w.entries;
      forall k | Descends(m2, update, k)
        ensures DeepUpdate(m2[k], update[k].entries) == Ok(m2[k])
      {
        if k in m {
          assert Descends(m, update, k);
          DeepUpdateIdempotent(m[k], update[k].entries);
        } else {
          assert m2[k] == update[k];
          SelfUpdate(update[k].entries);
        }
      }
      var r := DeepUpdate(w, update);
      assert r.Ok?;
      assert r.value.entries == m2;
    }
  }

  /** The settings object: the top-level mapping. */
  datatype Settings = Settings(config: map<string, Value>)

  /** `Config(config_path)`: the defaults, with the custom file merged over them
      when one is given. A custom file that is not a mapping (an empty file loads
      as `None`) has no `.items()`. */
  function Load(defaults: map<string, Value>, custom: Option<Value>): (r: Result<Settings>)
    ensures custom.None? ==> r == Ok(Settings(defaults))
    ensures custom.Some? && custom.value.Leaf? ==> r == Err(AttributeError)
    ensures custom.Some? && custom.value.Node? ==>
      (r.Ok? <==> DeepUpdate(Node(defaults), custom.value.entries).Ok?)
    ensures custom.Some? && custom.value.Node? && r.Ok? ==>
      Node(r.value.config) == DeepUpdate(Node(defaults), custom.value.entries).value
    ensures r.Err? ==> r.error == AttributeError || r.error == TypeError
  {
    match custom
    case None => Ok(Settings(defaults))
    case Some(Leaf(_)) => Err(AttributeError)
    case Some(Node(u)) =>
      match DeepUpdate(Node(defaults), u)
      case Err(e) => Err(e)
      case Ok(v) => Ok(Settings(v.entries))
  }

  /** A custom mapping overrides exactly the keys it names; every other default
      is kept. */
  lemma LoadKeepsDefaults(defaults: map<string, Value>, u: map<string, Value>, k: string)
    requires Load(defaults, Some(Node(u))).Ok?
    ensures var s := Load(defaults, Some(Node(u))).value;
      && s.config.Keys == defaults.Keys + u.Keys
      && (k in defaults && k !in u ==> s.config[k] == defaults[k])
  {
    DeepUpdateEntries(defaults, u, k);
  }

  /** `config[key]`: the stored value, or `KeyError`. */
  function GetItem(s: Settings, key: string): (r: Result<Value>)
    ensures r.Err? <==> key !in s.config
    ensures r.Err? ==> r.error == KeyError
    ensures r.Ok? ==> key in s.config && r.value == s.config[key]
  {
    if key in s.config then Ok(s.config[key]) else Err(KeyError)
  }

  /** `config.get(key, default)`: the stored value, or `default` for an absent key. */
  function Get(s: Settings, key: string, default: Option<Value>): (r: Option<Value>)
    ensures key !in s.config ==> r == default
    ensures key in s.config ==> r == Some(s.config[key])
  {
    if key in s.config then Some(s.config[key]) else default
  }

  /** `get` agrees with `[]` wherever `[]` succeeds, and falls back to the default
      exactly where `[]` raises. */
  lemma GetAgreesWithGetItem(s: Settings, key: string, default: Option<Value>)
    ensures GetItem(s, key).Ok? ==> Get(s, key, default) == Some(GetItem(s, key).value)
    ensures GetItem(s, key).Err? ==> Get(s, key, default) == default
  {
  }
}

=== FILE: cropping.dfy ===
/**
 The extractor: turns each annotation line of a source image into a crop
 file whose name records the image's stem, the line's index and the class id.
 */
module Cropping {
  import opened Outcomes
  import opened Numeric
  import opened Text
  import opened Raster
  import opened Boxes
  import opened Naming

  /** One parsed annotation: a class id and a box normalised to the image. */
  datatype Annotation = Annotation(classId: string, xc: real, yc: real, bw: real, bh: real)

  /** A crop the extractor writes. */
  datatype CropFile = CropFile(name: string, lineIndex: nat, classId: string, box: Box, pixels: Image)

  /** `map(float, parts[1:5])`: the four numbers, or `None` when one of them
      is not a decimal literal. */
  function ParseFields(parts: seq<string>): (r: Option<Annotation>)
    requires |parts| >= 5
    ensures r.None? <==> (|| ParseFloat(parts[1]).None? || ParseFloat(parts[2]).None?
                          || ParseFloat(parts[3]).None? || ParseFloat(parts[4]).None?)
    ensures r.Some? ==>
      && r.value.classId == parts[0]
      && Some(r.value.xc) == ParseFloat(parts[1]) && Some(r.value.yc) == ParseFloat(parts[2])
      && Some(r.value.bw) == ParseFloat(parts[3]) && Some(r.value.bh) == ParseFloat(parts[4])
  {
    var xc := ParseFloat(parts[1]);
    var yc := ParseFloat(parts[2]);
    var bw := ParseFloat(parts[3]);
    var bh := ParseFloat(parts[4]);
    if xc.Some? && yc.Some? && bw.Some? && bh.Some? then
      Some(Annotation(parts[0], xc.value, yc.value, bw.value, bh.value))
    else None
  }

  /** The annotation in the whitespace-separated parts of a line: fewer than
      five parts means none, and a part among the second to fifth that `float()`
      rejects raises. Parts after the fifth are not looked at. */
  function ParseParts(parts: seq<string>): (r: Result<Option<Annotation>>)
    ensures |parts| < 5 <==> r == Ok(None)
    ensures r.Err? ==> r.error == ValueError
    ensures r.Err? <==> |parts| >= 5 && ParseFields(parts).None?
    ensures r.Ok? && r.value.Some? ==> r.value == ParseFields(parts)
  {
    if |parts| < 5 then Ok(None)
    else
      match ParseFields(parts)
      case None => Err(ValueError)
      case Some(a) => Ok(Some(a))
  }

  /** `parts = line.strip().split()` followed by `ParseParts`; the strip does
      not change the parts. */
  function ParseAnnotation(line: string): (r: Result<Option<Annotation>>)
    ensures r == ParseParts(Split(line))
  {
    SplitOfStrip(line);
    ParseParts(Split(Strip(line)))
  }

  /** Scales the normalised box by the image size and truncates the corners
      toward zero, as `int()` does. */
  function PixelCorners(a: Annotation, w: nat, h: nat): (b: Box)
    ensures b.x1 == Trunc((a.xc - a.bw / 2.0) * w as real)
    ensures b.y1 == Trunc((a.yc - a.bh / 2.0) * h as real)
    ensures b.x2 == Trunc((a.xc + a.bw / 2.0) * w as real)
    ensures b.y2 == Trunc((a.yc + a.bh / 2.0) * h as real)
  {
    var xc := a.xc * w as real;
    var yc := a.yc * h as real;
    var bw := a.bw * w as real;
    var bh := a.bh * h as real;
    Box(Trunc(xc - bw / 2.0), Trunc(yc - bh / 2.0), Trunc(xc + bw / 2.0), Trunc(yc + bh / 2.0))
  }

  /** Clamps the corners to `[0, w-1]` and `[0, h-1]`; the lower corners are only
      raised and the upper corners only lowered. */
  function ClampBox(b: Box, w: int, h: int): (c: Box)
    ensures 0 <= c.x1 && 0 <= c.y1 && c.x2 <= w - 1 && c.y2 <= h - 1
    ensures b.x1 <= c.x1 && b.y1 <= c.y1 && c.x2 <= b.x2 && c.y2 <= b.y2
    ensures 0 <= b.x1 ==> c.x1 == b.x1
    ensures 0 <= b.y1 ==> c.y1 == b.y1
    ensures b.x2 <= w - 1 ==> c.x2 == b.x2
    ensures b.y2 <= h - 1 ==> c.y2 == b.y2
    ensures b.x1 < 0 ==> c.x1 == 0
    ensures b.y1 < 0 ==> c.y1 == 0
    ensures b.x2 > w - 1 ==> c.x2 == w - 1
    ensures b.y2 > h - 1 ==> c.y2 == h - 1
  {
    Box(Max(0, b.x1), Max(0, b.y1), Min(w - 1, b.x2), Min(h - 1, b.y2))
  }

  /** Clamping twice is clamping once. */
  lemma ClampIdempotent(b: Box, w: int, h: int)
    ensures ClampBox(ClampBox(b, w, h), w, h) == ClampBox(b, w, h)
  {
  }

  /** No crop is cut from a box that is empty in either direction. */
  predicate Degenerate(b: Box)
  {
    b.x2 <= b.x1 || b.y2 <= b.y1
  }

  /** The pixel box of an annotation on a `w`-by-`h` image, after clamping. */
  function CropBox(a: Annotation, w: nat, h: nat): Box
  {
    ClampBox(PixelCorners(a, w, h), w, h)
  }

  /** A box that survives the degenerate check lies inside the image, with
      `x2` at most `w-1` and `y2` at most `h-1`. */
  lemma CropBoxInside(a: Annotation, w: nat, h: nat)
    requires !Degenerate(CropBox(a, w, h))
    ensures var b := CropBox(a, w, h);
      0 <= b.x1 < b.x2 <= w - 1 && 0 <= b.y1 < b.y2 <= h - 1
  {
  }

  /** `c` is the crop of `img` at a non-degenerate box inside the image, end
      exclusive: `(x2-x1)` pixels wide and `(y2-y1)` high. */
  ghost predicate CutFrom(c: CropFile, img: Image)
    requires Wf(img)
  {
    && 0 <= c.box.x1 < c.box.x2 <= img.width - 1
    && 0 <= c.box.y1 < c.box.y2 <= img.height - 1
    && Wf(c.pixels)
    && c.pixels.width == c.box.x2 - c.box.x1
    && c.pixels.height == c.box.y2 - c.box.y1
    && forall y, x :: 0 <= y < c.pixels.height && 0 <= x < c.pixels.width ==>
         c.pixels.rows[y][x] == img.rows[c.box.y1 + y][c.box.x1 + x]
  }

  /** The crop file for annotation `a` of line `idx`, if its box is not degenerate. */
  function CropOf(a: Annotation, img: Image, imgName: string, idx: nat): (r: Option<CropFile>)
    requires Loaded(img)
    ensures r.None? <==> Degenerate(CropBox(a, img.width, img.height))
    ensures r.Some? ==> CutFrom(r.value, img) && r.value.box == CropBox(a, img.width, img.height)
    ensures r.Some? ==>
      && r.value.classId == a.classId && r.value.lineIndex == idx
      && r.value.name == CropName(Stem(imgName), idx, a.classId)
  {
    var b := CropBox(a, img.width, img.height);
    if Degenerate(b) then None
    else Some(CropFile(CropName(Stem(imgName), idx, a.classId), idx, a.classId, b,
                       Crop(img, b.x1, b.y1, b.x2, b.y2)))
  }

  /** What a written crop records about its line: the index, the name built
      from the image's stem, the index and the class id, and the pixels. */
  ghost predicate CropOfLine(c: CropFile, img: Image, imgName: string, idx: nat)
    requires Wf(img)
  {
    c.lineIndex == idx && c.name == CropName(Stem(imgName), idx, c.classId) && CutFrom(c, img)
  }

  /** `_process_label_line`: `Ok(None)` when the line is short or its box is
      degenerate, `Ok(Some(crop))` for a written crop, `Err` when `float()` raises. */
  function ProcessLabelLine(line: string, img: Image, imgName: string, idx: nat): (r: Result<Option<CropFile>>)
    requires Loaded(img)
    ensures r.Err? ==> r.error == ValueError
    ensures r.Ok? && r.value.Some? ==> CropOfLine(r.value.value, img, imgName, idx)
  {
    match ParseAnnotation(line)
    case Err(e) => Err(e)
    case Ok(None) => Ok(None)
    case Ok(Some(a)) => Ok(CropOf(a, img, imgName, idx))
  }

  /** How the outcome of a line follows from its whitespace-separated parts. */
  lemma ProcessLabelLineCases(line: string, img: Image, imgName: string, idx: nat)
    requires Loaded(img)
    ensures var r := ProcessLabelLine(line, img, imgName, idx); var parts := Split(line);
      && (|parts| < 5 ==> r == Ok(None))
      && (r.Err? <==> |parts| >= 5 && ParseFields(parts).None?)
      && (|parts| >= 5 && ParseFields(parts).Some? ==>
            r == Ok(CropOf(ParseFields(parts).value, img, imgName, idx)))
      && (r.Ok? && r.value.None? && |parts| >= 5 ==>
            Degenerate(CropBox(ParseFields(parts).value, img.width, img.height)))
      && (r.Ok? && r.value.Some? ==> |parts| >= 5 && r.value.value.classId == parts[0])
  {
  }

  /** The crops written for one image, and the error that stopped the loop, if any. */
  datatype Extraction = Extraction(crops: seq<CropFile>, failure: Option<PyError>)

  /** The loop of `_process_image` over what each line yields, from line `from`
      on: crops are collected in order, and the first error stops the loop after
      the crops already written. */
  function CollectCrops(outcomes: seq<Result<Option<CropFile>>>, from: nat): (r: Extraction)
    requires from <= |outcomes|
    ensures |r.crops| <= |outcomes| - from
    decreases |outcomes| - from
  {
    if from == |outcomes| then Extraction([], None)
    else
      match outcomes[from]
      case Err(e) => Extraction([], Some(e))
      case Ok(out) =>
        var rest := CollectCrops(outcomes, from + 1);
        Extraction(if out.Some? then [out.value] + rest.crops else rest.crops, rest.failure)
  }

  /** The crop index `k` of `CollectCrops(outcomes, from)` came from: a line at or
      after `from` whose outcome is exactly that crop. */
  lemma {:induction false} CollectCropsSound(outcomes: seq<Result<Option<CropFile>>>, from: nat, k: nat)
    requires from <= |outcomes| && k < |CollectCrops(outcomes, from).crops|
    ensures exists i :: from <= i < |outcomes| && outcomes[i] == Ok(Some(CollectCrops(outcomes, from).crops[k]))
    decreases |outcomes| - from
  {
    var out := outcomes[from].value;
    if out.Some? && k == 0 {
      assert outcomes[from] == Ok(Some(CollectCrops(outcomes, from).crops[k]));
    } else {
      CollectCropsSound(outcomes, from + 1, if out.Some? then k - 1 else k);
    }
  }

  /** The loop ends without an error exactly when no line from `from` on raises. */
  lemma {:induction false} CollectCropsFailure(outcomes: seq<Result<Option<CropFile>>>, from: nat)
    requires from <= |outcomes|
    ensures CollectCrops(outcomes, from).failure.None? <==>
      forall i :: from <= i < |outcomes| ==> outcomes[i].Ok?
    decreases |outcomes| - from
  {
    if from < |outcomes| {
      CollectCropsFailure(outcomes, from + 1);
    }
  }

  /** The loop stops at a raising line: the lines after it do not matter. */
  lemma {:induction false} CollectCropsStops(outcomes: seq<Result<Option<CropFile>>>, from: nat, e: nat)
    requires from <= e < |outcomes| && outcomes[e].Err?
    ensures CollectCrops(outcomes, from) == CollectCrops(outcomes[..e + 1], from)
    decreases e - from
  {
    assert outcomes[..e + 1][from] == outcomes[from];
    if from < e && outcomes[from].Ok? {
      CollectCropsStops(outcomes, from + 1, e);
    }
  }

  /** At the first raising line the loop ends with that line's error, after
      collecting every crop the lines before it yield. */
  lemma {:induction false} CollectCropsFirstError(outcomes: seq<Result<Option<CropFile>>>, from: nat, e: nat)
    requires from <= e < |outcomes| && outcomes[e].Err?
    requires forall i :: from <= i < e ==> outcomes[i].Ok?
    ensures CollectCrops(outcomes, from).failure == Some(outcomes[e].error)
    ensures forall i :: from <= i < e && outcomes[i].value.Some? ==>
      outcomes[i].value.value in CollectCrops(outcomes, from).crops
    decreases e - from
  {
    if from < e {
      CollectCropsFirstError(outcomes, from + 1, e);
    }
  }

  /** When each crop records its line's index, no crop comes from a line at or
      after a raising one. */
  lemma {:induction false} CollectCropsBefore(outcomes: seq<Result<Option<CropFile>>>, from: nat, e: nat)
    requires from <= e < |outcomes| && outcomes[e].Err?
    requires forall i :: 0 <= i < |outcomes| && outcomes[i].Ok? && outcomes[i].value.Some? ==>
      outcomes[i].value.value.lineIndex == i
    ensures forall c :: c in CollectCrops(outcomes, from).crops ==> c.lineIndex < e
    decreases e - from
  {
    if from < e && outcomes[from].Ok? {
      CollectCropsBefore(outcomes, from + 1, e);
    }
  }

  /** When no line raises, every crop a line yields is collected. */
  lemma {:induction false} CollectCropsComplete(outcomes: seq<Result<Option<CropFile>>>, from: nat, i: nat)
    requires from <= i < |outcomes|
    requires CollectCrops(outcomes, from).failure.None?
    requires outcomes[i].Ok? && outcomes[i].value.Some?
    ensures outcomes[i].value.value in CollectCrops(outcomes, from).crops
    decreases |outcomes| - from
  {
    if outcomes[from].Ok? && i > from {
      CollectCropsComplete(outcomes, from + 1, i);
    }
  }

  /** `_process_image` for one image: nothing is written when the label file is
      missing or the image cannot be read; otherwise line `i` of the file is
      processed with index `i`, counting lines that yield no crop. */
  function ProcessImage(imgName: string, labelLines: Option<seq<string>>, img: Option<Image>): (r: Extraction)
    requires img.Some? ==> Loaded(img.value)
    ensures labelLines.None? || img.None? ==> r == Extraction([], None)
    ensures labelLines.Some? && img.Some? ==> |r.crops| <= |labelLines.value|
  {
    if labelLines.None? || img.None? then Extraction([], None)
    else CollectCrops(Enumerate(labelLines.value, LineProcessor(img.value, imgName), 0), 0)
  }

  /** `_process_label_line` with the image and its name fixed, as the loop calls it. */
  function LineProcessor(img: Image, imgName: string): (string, nat) -> Result<Option<CropFile>>
  {
    (line: string, i: nat) => if Loaded(img) then ProcessLabelLine(line, img, imgName, i) else Ok(None)
  }

  /** `[f(line, i) for i, line in enumerate(lines)]`, from line `from` on. */
  function Enumerate<U>(lines: seq<string>, f: (string, nat) -> U, from: nat): (r: seq<U>)
    requires from <= |lines|
    ensures |r| == |lines| - from
    decreases |lines| - from
  {
    if from == |lines| then []
    else [f(lines[from], from)] + Enumerate(lines, f, from + 1)
  }

  /** Element `i - from` of `Enumerate(lines, f, from)` is `f` applied to line `i` and index `i`. */
  lemma {:induction false} EnumerateAt<U>(lines: seq<string>, f: (string, nat) -> U, from: nat, i: nat)
    requires from <= i < |lines|
    ensures Enumerate(lines, f, from)[i - from] == f(lines[i], i)
    decreases i - from
  {
    if i > from {
      EnumerateAt(lines, f, from + 1, i);
    }
  }

  /** Enumerating a prefix of the lines gives the same prefix of the outcomes. */
  lemma {:induction false} EnumeratePrefix<U>(lines: seq<string>, f: (string, nat) -> U, from: nat, n: nat)
    requires from <= n <= |lines|
    ensures Enumerate(lines[..n], f, from) == Enumerate(lines, f, from)[..n - from]
    decreases n - from
  {
    if from < n {
      EnumeratePrefix(lines, f, from + 1, n);
      assert lines[..n][from] == lines[from];
    }
  }

  /** Crops are collected in line order when each crop records its line's index. */
  lemma {:induction false} CollectCropsOrdered(outcomes: seq<Result<Option<CropFile>>>, from: nat)
    requires from <= |outcomes|
    requires forall i :: 0 <= i < |outcomes| && outcomes[i].Ok? && outcomes[i].value.Some? ==>
      outcomes[i].value.value.lineIndex == i
    ensures forall c :: c in CollectCrops(outcomes, from).crops ==> from <= c.lineIndex
    ensures forall k, l :: 0 <= k < l < |CollectCrops(outcomes, from).crops| ==>
      CollectCrops(outcomes, from).crops[k].lineIndex < CollectCrops(outcomes, from).crops[l].lineIndex
    decreases |outcomes| - from
  {
    if from < |outcomes| && outcomes[from].Ok? {
      CollectCropsOrdered(outcomes, from + 1);
      var rest := CollectCrops(outcomes, from + 1);
      var crops := CollectCrops(outcomes, from).crops;
      if outcomes[from].value.Some? {
        assert crops == [outcomes[from].value.value] + rest.crops;
        assert crops[0].lineIndex == from;
        forall k | 1 <= k < |crops|
          ensures crops[k] == rest.crops[k - 1]
        {
        }
      } else {
        assert crops == rest.crops;
      }
    }
  }

  /** A crop yielded by a line records that line's index. */
  lemma LineCrop(line: string, img: Image, imgName: string, i: nat, c: CropFile)
    requires Loaded(img) && ProcessLabelLine(line, img, imgName, i) == Ok(Some(c))
    ensures c.lineIndex == i && CropOfLine(c, img, imgName, i)
  {
  }

  /** Every crop written for an image is the crop of some line `i` of its label
      file, is named `{stem}_{i}_class{id}.png`, and lies inside the image. */
  lemma ProcessImageSound(imgName: string, lines: seq<string>, img: Image, k: nat)
    requires Loaded(img)
    requires k < |ProcessImage(imgName, Some(lines), Some(img)).crops|
    ensures var c := ProcessImage(imgName, Some(lines), Some(img)).crops[k];
      && c.lineIndex < |lines|
      && ProcessLabelLine(lines[c.lineIndex], img, imgName, c.lineIndex) == Ok(Some(c))
      && CropOfLine(c, img, imgName, c.lineIndex)
  {
    var outcomes := Enumerate(lines, LineProcessor(img, imgName), 0);
    OutcomesOfLines(imgName, lines, img);
    var c := CollectCrops(outcomes, 0).crops[k];
    CollectCropsSound(outcomes, 0, k);
    var i :| 0 <= i < |outcomes| && outcomes[i] == Ok(Some(c));
    LineCrop(lines[i], img, imgName, i, c);
  }

  /** The outcomes the loop of `_process_image` folds are those of the lines. */
  lemma OutcomesOfLines(imgName: string, lines: seq<string>, img: Image)
    requires Loaded(img)
    ensures var outcomes := Enumerate(lines, LineProcessor(img, imgName), 0);
      && ProcessImage(imgName, Some(lines), Some(img)) == CollectCrops(outcomes, 0)
      && forall i :: 0 <= i < |lines| ==> outcomes[i] == ProcessLabelLine(lines[i], img, imgName, i)
  {
    forall i | 0 <= i < |lines|
      ensures Enumerate(lines, LineProcessor(img, imgName), 0)[i] == ProcessLabelLine(lines[i], img, imgName, i)
    {
      OutcomeAt(imgName, lines, img, i);
    }
  }

  /** Outcome `i` of the loop is what line `i` yields. */
  lemma OutcomeAt(imgName: string, lines: seq<string>, img: Image, i: nat)
    requires Loaded(img) && i < |lines|
    ensures Enumerate(lines, LineProcessor(img, imgName), 0)[i] == ProcessLabelLine(lines[i], img, imgName, i)
  {
    EnumerateAt(lines, LineProcessor(img, imgName), 0, i);
    LineProcessorApply(img, imgName, lines[i], i);
  }

  lemma LineProcessorApply(img: Image, imgName: string, line: string, i: nat)
    requires Loaded(img)
    ensures LineProcessor(img, imgName)(line, i) == ProcessLabelLine(line, img, imgName, i)
  {
  }

  /** Processing stops with an error exactly when some line of the file raises. */
  lemma ProcessImageFailure(imgName: string, lines: seq<string>, img: Image)
    requires Loaded(img)
    ensures ProcessImage(imgName, Some(lines), Some(img)).failure.None? <==>
      forall i :: 0 <= i < |lines| ==> ProcessLabelLine(lines[i], img, imgName, i).Ok?
  {
    OutcomesOfLines(imgName, lines, img);
    CollectCropsFailure(Enumerate(lines, LineProcessor(img, imgName), 0), 0);
  }

  /** Processing stops at a line that raises: the lines after it are never
      looked at. */
  lemma ProcessImageStops(imgName: string, lines: seq<string>, img: Image, e: nat)
    requires Loaded(img) && e < |lines|
    requires ProcessLabelLine(lines[e], img, imgName, e).Err?
    ensures ProcessImage(imgName, Some(lines), Some(img)) == ProcessImage(imgName, Some(lines[..e + 1]), Some(img))
  {
    var f := LineProcessor(img, imgName);
    OutcomeAt(imgName, lines, img, e);
    CollectCropsStops(Enumerate(lines, f, 0), 0, e);
    EnumeratePrefix(lines, f, 0, e + 1);
  }

  /** No crop comes from a line at or after one that raises. */
  lemma ProcessImageNoCropAfterError(imgName: string, lines: seq<string>, img: Image, e: nat)
    requires Loaded(img) && e < |lines|
    requires ProcessLabelLine(lines[e], img, imgName, e).Err?
    ensures forall c :: c in ProcessImage(imgName, Some(lines), Some(img)).crops ==> c.lineIndex < e
  {
    OutcomesOfLines(imgName, lines, img);
    var outcomes := Enumerate(lines, LineProcessor(img, imgName), 0);
    forall i | 0 <= i < |outcomes| && outcomes[i].Ok? && outcomes[i].value.Some?
      ensures outcomes[i].value.value.lineIndex == i
    {
      LineCrop(lines[i], img, imgName, i, outcomes[i].value.value);
    }
    CollectCropsBefore(outcomes, 0, e);
  }

  /** At the first line that raises, processing ends with that line's error,
      after writing every crop an earlier line yields. */
  lemma ProcessImageFirstError(imgName: string, lines: seq<string>, img: Image, e: nat)
    requires Loaded(img) && e < |lines|
    requires ProcessLabelLine(lines[e], img, imgName, e).Err?
    requires forall i :: 0 <= i < e ==> ProcessLabelLine(lines[i], img, imgName, i).Ok?
    ensures ProcessImage(imgName, Some(lines), Some(img)).failure ==
      Some(ProcessLabelLine(lines[e], img, imgName, e).error)
    ensures forall i :: 0 <= i < e && ProcessLabelLine(lines[i], img, imgName, i).value.Some? ==>
      ProcessLabelLine(lines[i], img, imgName, i).value.value in ProcessImage(imgName, Some(lines), Some(img)).crops
  {
    OutcomesOfLines(imgName, lines, img);
    CollectCropsFirstError(Enumerate(lines, LineProcessor(img, imgName), 0), 0, e);
  }

  /** When no line raises, every line that yields a crop has it written. */
  lemma ProcessImageComplete(imgName: string, lines: seq<string>, img: Image, i: nat)
    requires Loaded(img) && i < |lines|
    requires ProcessImage(imgName, Some(lines), Some(img)).failure.None?
    requires ProcessLabelLine(lines[i], img, imgName, i).Ok?
    requires ProcessLabelLine(lines[i], img, imgName, i).value.Some?
    ensures ProcessLabelLine(lines[i], img, imgName, i).value.value
      in ProcessImage(imgName, Some(lines), Some(img)).crops
  {
    OutcomesOfLines(imgName, lines, img);
    CollectCropsComplete(Enumerate(lines, LineProcessor(img, imgName), 0), 0, i);
  }

  /** The crops of one image are written in the order of their lines. */
  lemma ProcessImageOrdered(imgName: string, lines: seq<string>, img: Image)
    requires Loaded(img)
    ensures forall k, l :: 0 <= k < l < |ProcessImage(imgName, Some(lines), Some(img)).crops| ==>
      ProcessImage(imgName, Some(lines), Some(img)).crops[k].lineIndex
        < ProcessImage(imgName, Some(lines), Some(img)).crops[l].lineIndex
  {
    OutcomesOfLines(imgName, lines, img);
    var outcomes := Enumerate(lines, LineProcessor(img, imgName), 0);
    forall i | 0 <= i < |outcomes| && outcomes[i].Ok? && outcomes[i].value.Some?
      ensures outcomes[i].value.value.lineIndex == i
    {
      LineCrop(lines[i], img, imgName, i, outcomes[i].value.value);
    }
    CollectCropsOrdered(outcomes, 0);
  }

  /** The crops written for one image all have different file names. */
  lemma CropNamesDistinct(imgName: string, lines: seq<string>, img: Image, k: nat, l: nat)
    requires Loaded(img)
    requires k < l < |ProcessImage(imgName, Some(lines), Some(img)).crops|
    ensures ProcessImage(imgName, Some(lines), Some(img)).crops[k].name
         != ProcessImage(imgName, Some(lines), Some(img)).crops[l].name
  {
    var crops := ProcessImage(imgName, Some(lines), Some(img)).crops;
    ProcessImageOrdered(imgName, lines, img);
    ProcessImageSound(imgName, lines, img, k);
    ProcessImageSound(imgName, lines, img, l);
    var ck := crops[k];
    var cl := crops[l];
    assert ck.lineIndex < cl.lineIndex;
    if ck.name == cl.name {
      CropNameInjective(Stem(imgName), ck.lineIndex, cl.lineIndex, ck.classId, cl.classId);
    }
  }

  /** The class id the compositor parses from a crop's name is the first part
      of the annotation line, whenever that part has no `_class` and no dot. */
  lemma CropClassIdRecoverable(line: string, img: Image, imgName: string, idx: nat)
    requires Loaded(img)
    requires ProcessLabelLine(line, img, imgName, idx).Ok?
    requires ProcessLabelLine(line, img, imgName, idx).value.Some?
    requires |Split(line)| > 0 && Excludes(Split(line)[0], ClassTag) && '.' !in Split(line)[0]
    ensures ClassIdOf(ProcessLabelLine(line, img, imgName, idx).value.value.name) == Split(line)[0]
  {
    ProcessLabelLineCases(line, img, imgName, idx);
    ClassIdRoundTrip(Stem(imgName), idx, Split(line)[0]);
  }

  /** The full-image annotation (centre 0.5, 0.5, extent 1, 1) gives the box
      `(0, 0, w-1, h-1)`: the crop omits the last column and the last row. */
  lemma FullImageBox(cid: string, w: nat, h: nat)
    requires w >= 1 && h >= 1
    ensures CropBox(Annotation(cid, 0.5, 0.5, 1.0, 1.0), w, h) == Box(0, 0, w - 1, h - 1)
  {
    TruncOfWhole(0);
    TruncOfWhole(w);
    TruncOfWhole(h);
    assert (0.5 - 1.0 / 2.0) * w as real == 0 as real;
    assert (0.5 + 1.0 / 2.0) * w as real == w as real;
    assert (0.5 - 1.0 / 2.0) * h as real == 0 as real;
    assert (0.5 + 1.0 / 2.0) * h as real == h as real;
  }

  lemma ParseHalf()
    ensures ParseFloat("0.5") == Some(0.5)
  {
    assert ExponentIndex("0.5") == 3;
    assert "0.5"[..3] == "0.5";
    assert IndexOf("0.5", '.') == 1;
    assert "0.5"[..1] == "0" && "0.5"[2..] == "5";
    assert DigitsValue("0") == 0 by { assert "0"[..0] == ""; }
    assert DigitsValue("5") == 5 by { assert "5"[..0] == ""; }
  }

  /** The parts `c 0.5 0.5 1 1` describe the full-image annotation. */
  lemma FullImageParts(cid: string)
    ensures ParseParts([cid, "0.5", "0.5", "1", "1"]) == Ok(Some(Annotation(cid, 0.5, 0.5, 1.0, 1.0)))
  {
    assert NatToString(1) == "1";
    ParseHalf();
    ParseFloatOfNat(1);
  }

  /** A line whose parts are `parts` yields what `ParseParts` and `CropOf` give. */
  lemma ProcessLabelLineOfParts(line: string, parts: seq<string>, a: Annotation, img: Image, imgName: string, idx: nat)
    requires Loaded(img) && Split(line) == parts && ParseParts(parts) == Ok(Some(a))
    ensures ProcessLabelLine(line, img, imgName, idx) == Ok(CropOf(a, img, imgName, idx))
  {
  }

  /** The line `c 0.5 0.5 1 1` on an image at least two pixels wide and high
      yields a crop of the whole image but its last column and row. */
  lemma FullImageLine(cid: string, img: Image, imgName: string, idx: nat)
    requires Loaded(img) && img.width >= 2 && img.height >= 2
    requires IsWord(cid)
    ensures var r := ProcessLabelLine(JoinSpaced([cid, "0.5", "0.5", "1", "1"]), img, imgName, idx);
      && r.Ok? && r.value.Some? && r.value.value.box == Box(0, 0, img.width - 1, img.height - 1)
      && r.value.value.pixels.width == img.width - 1 && r.value.value.pixels.height == img.height - 1
  {
    var words := [cid, "0.5", "0.5", "1", "1"];
    var a := Annotation(cid, 0.5, 0.5, 1.0, 1.0);
    assert IsWord("0.5") && IsWord("1");
    SplitJoinSpaced(words);
    FullImageParts(cid);
    FullImageBox(cid, img.width, img.height);
    ProcessLabelLineOfParts(JoinSpaced(words), words, a, img, imgName, idx);
  }

  /** A one-pixel-wide image never yields a crop, whatever the annotation. */
  lemma NarrowImageNoCrop(a: Annotation, h: nat)
    ensures Degenerate(CropBox(a, 1, h))
  {
  }

  /** Parts after the fifth do not affect the outcome of a line. */
  lemma ExtraPartsIgnored(parts: seq<string>)
    requires |parts| >= 5
    ensures ParseParts(parts) == ParseParts(parts[..5])
  {
    assert forall t :: 0 <= t < 5 ==> parts[t] == parts[..5][t];
  }
}

=== FILE: draws.dfy ===
/**
 The random module's calls, with the generator's output supplied by the
 caller. Each call receives a raw natural number and reduces it into the
 range the call asks for; no claim is made about the distribution.
 */
module Draws {
  import opened Outcomes

  /** `random.randint(lo, hi)` for a non-empty range. */
  function RandInt(lo: int, hi: int, raw: nat): (r: int)
    requires lo <= hi
    ensures lo <= r <= hi
  {
    lo + raw % (hi - lo + 1)
  }

  /** Every value of the range is produced by some draw. */
  lemma RandIntReaches(lo: int, hi: int, v: int)
    requires lo <= v <= hi
    ensures RandInt(lo, hi, v - lo) == v
  {
  }

  /** `random.randint(lo, hi)` for any bounds: an empty range raises `ValueError`. */
  function RandIntChecked(lo: int, hi: int, raw: nat): (r: Result<int>)
    ensures r.Err? <==> hi < lo
    ensures r.Err? ==> r.error == ValueError
    ensures r.Ok? ==> lo <= r.value <= hi
  {
    if hi < lo then Err(ValueError) else Ok(RandInt(lo, hi, raw))
  }

  /** `random.choice(xs)`: an empty list raises `IndexError`. */
  function Choice<T>(xs: seq<T>, raw: nat): (r: Result<T>)
    ensures r.Err? <==> |xs| == 0
    ensures r.Err? ==> r.error == IndexError
    ensures r.Ok? ==> r.value in xs
  {
    if |xs| == 0 then Err(IndexError) else Ok(xs[RandInt(0, |xs| - 1, raw)])
  }

  /** Every element of a non-empty list can be chosen. */
  lemma ChoiceReaches<T>(xs: seq<T>, i: nat)
    requires i < |xs|
    ensures Choice(xs, i) == Ok(xs[i])
  {
  }
}

=== FILE: naming.dfy ===
/**
 The file names that carry information between the two pipelines: the
 crop name the extractor writes (`{stem}_{line}_class{class_id}.png`), the
 class id the compositor parses back out of it, and the names of the
 synthesized image and label files.
 */
module Naming {
  import opened Outcomes
  import opened Text

  const ClassTag: string := "_class"

  /** `f"{stem}_{idx}_class{class_id}.png"` */
  function CropName(stem: string, idx: nat, classId: string): string
  {
    stem + "_" + NatToString(idx) + ClassTag + classId + ".png"
  }

  /** `name.split('_class')[-1]`: the text after the last `_class`, or the whole
      name when there is none. `_class` cannot overlap itself, so the last piece
      of Python's left-to-right split starts after its last occurrence. */
  function AfterLastTag(name: string): (tail: string)
    ensures LastOccurrence(name, ClassTag).None? ==> tail == name
    ensures LastOccurrence(name, ClassTag).Some? ==>
      tail == name[LastOccurrence(name, ClassTag).value + |ClassTag|..]
    ensures Excludes(tail, ClassTag) || tail == name
  {
    match LastOccurrence(name, ClassTag)
    case None => name
    case Some(k) =>
      var tail := name[k + |ClassTag|..];
      assert Excludes(tail, ClassTag) by {
        forall j | 0 <= j
          ensures !OccursAt(tail, ClassTag, j)
        {
          if OccursAt(tail, ClassTag, j) {
            assert name[k + |ClassTag| + j..k + |ClassTag| + j + |ClassTag|] == tail[j..j + |ClassTag|];
            assert OccursAt(name, ClassTag, k + |ClassTag| + j);
          }
        }
      }
      tail
  }

  /** `name.split('_class')[-1].split('.')[0]`, the class id recovered from a
      crop's file name, as `_try_place_object` does. */
  function ClassIdOf(name: string): (cid: string)
    ensures '.' !in cid
    ensures cid <= AfterLastTag(name)
    ensures |cid| < |AfterLastTag(name)| ==> AfterLastTag(name)[|cid|] == '.'
  {
    var tail := AfterLastTag(name);
    tail[..IndexOf(tail, '.')]
  }

  lemma DigitsHaveNoUnderscore(n: nat)
    ensures '_' !in NatToString(n)
  {
    var s := NatToString(n);
    assert forall i :: 0 <= i < |s| ==> IsDigit(s[i]);
  }

  /** The only underscore of `"_class"` is its first character. */
  lemma TagHasOneUnderscore(prefix: string, cid: string, k: int)
    ensures |prefix| < k < |prefix| + 6 ==> (prefix + ClassTag + cid + ".png")[k] != '_'
  {
    var name := prefix + ClassTag + cid + ".png";
    if |prefix| < k < |prefix| + 6 {
      assert name[k] == ClassTag[k - |prefix|];
    }
  }

  /** In `prefix + "_class" + cid + ".png"`, the id sits right after the tag. */
  lemma IdSlice(prefix: string, cid: string, k: int)
    ensures var p := |prefix|;
      p + 6 <= k && k + 6 <= p + 6 + |cid| ==>
      (prefix + ClassTag + cid + ".png")[k..k + 6] == cid[k - p - 6..k - p]
  {
  }

  /** ... and the dot right after the id. */
  lemma DotAfterId(prefix: string, cid: string)
    ensures (prefix + ClassTag + cid + ".png")[|prefix| + 6 + |cid|] == '.'
  {
  }

  lemma OccursAtChar(s: string, pat: string, k: int, t: int)
    ensures OccursAt(s, pat, k) && 0 <= t < |pat| ==> s[k + t] == pat[t]
  {
    if OccursAt(s, pat, k) && 0 <= t < |pat| {
      assert s[k..k + |pat|][t] == s[k + t];
    }
  }

  /** No occurrence of `_class` starts inside `"_class" + cid + ".png"` after its
      first character when `cid` contains no `_class` and no dot. */
  lemma NoLaterTag(prefix: string, cid: string, k: int)
    requires Excludes(cid, ClassTag) && '.' !in cid
    requires |prefix| < k
    ensures !OccursAt(prefix + ClassTag + cid + ".png", ClassTag, k)
  {
    var name := prefix + ClassTag + cid + ".png";
    var p := |prefix|;
    var d := p + 6 + |cid|;
    if OccursAt(name, ClassTag, k) {
      OccursAtChar(name, ClassTag, k, 0);
      if k < p + 6 {
        TagHasOneUnderscore(prefix, cid, k);
        assert false;
      } else if k + 6 <= d {
        IdSlice(prefix, cid, k);
        assert OccursAt(cid, ClassTag, k - p - 6);
      } else {
        DotAfterId(prefix, cid);
        OccursAtChar(name, ClassTag, k, d - k);
        assert false;
      }
    }
  }

  /** Parsing a crop name gives back the class id it was written with, whenever
      the id contains neither `_class` nor a dot. */
  lemma ClassIdRoundTrip(stem: string, idx: nat, cid: string)
    requires Excludes(cid, ClassTag) && '.' !in cid
    ensures ClassIdOf(CropName(stem, idx, cid)) == cid
  {
    var prefix := stem + "_" + NatToString(idx);
    var name := CropName(stem, idx, cid);
    assert name == prefix + ClassTag + cid + ".png";
    var p := |prefix|;
    assert OccursAt(name, ClassTag, p) by {
      assert name[p..p + 6] == ClassTag;
    }
    forall k | p < k
      ensures !OccursAt(name, ClassTag, k)
    {
      NoLaterTag(prefix, cid, k);
    }
    var tail := name[p + 6..];
    assert LastOccurrence(name, ClassTag) == Some(p);
    assert tail == cid + ".png";
    assert IndexOf(tail, '.') == |cid| by {
      assert tail[|cid|] == '.';
      assert forall j :: 0 <= j < |cid| ==> tail[j] == cid[j];
    }
    assert tail[..|cid|] == cid;
  }

  /** Within one source image, a crop name determines the line index and the
      class id: crops of different lines never overwrite each other. */
  lemma CropNameInjective(stem: string, i: nat, j: nat, ci: string, cj: string)
    requires CropName(stem, i, ci) == CropName(stem, j, cj)
    ensures i == j && ci == cj
  {
    var x := "class" + ci + ".png";
    var y := "class" + cj + ".png";
    var u := NatToString(i) + "_" + x;
    var v := NatToString(j) + "_" + y;
    assert CropName(stem, i, ci) == stem + "_" + u;
    assert CropName(stem, j, cj) == stem + "_" + v;
    CancelPrefix(stem + "_", u, v);
    AfterNumber(i, j, x, y);
    assert ci == x[5..|x| - 4] == y[5..|y| - 4] == cj;
  }

  const OutputPrefix: string := "synthesized_"

  /** `f"synthesized_{idx}_{orig_name}"`, the synthesized image's name. */
  function OutputImageName(idx: nat, orig: string): string
  {
    OutputPrefix + NatToString(idx) + "_" + orig
  }

  /** `f"synthesized_{idx}_{os.path.splitext(orig_name)[0]}.txt"`, its label file. */
  function OutputLabelName(idx: nat, orig: string): string
  {
    OutputPrefix + NatToString(idx) + "_" + Stem(orig) + ".txt"
  }

  /** Equal strings with a common prefix agree after it. */
  lemma CancelPrefix(p: string, u: string, v: string)
    requires p + u == p + v
    ensures u == v
  {
    assert u == (p + u)[|p|..];
    assert v == (p + v)[|p|..];
  }

  /** `a + "_" + x` splits uniquely after the number `a`. */
  lemma AfterNumber(i: nat, j: nat, x: string, y: string)
    requires NatToString(i) + "_" + x == NatToString(j) + "_" + y
    ensures i == j && x == y
  {
    DigitsHaveNoUnderscore(i);
    DigitsHaveNoUnderscore(j);
    SplitAtFirst(NatToString(i), NatToString(j), '_', x, y);
    NatToStringInjective(i, j);
  }

  lemma AfterOutputPrefix(i: nat, j: nat, x: string, y: string)
    requires OutputPrefix + NatToString(i) + "_" + x == OutputPrefix + NatToString(j) + "_" + y
    ensures i == j && x == y
  {
    var u := NatToString(i) + "_" + x;
    var v := NatToString(j) + "_" + y;
    assert OutputPrefix + NatToString(i) + "_" + x == OutputPrefix + u;
    assert OutputPrefix + NatToString(j) + "_" + y == OutputPrefix + v;
    CancelPrefix(OutputPrefix, u, v);
    AfterNumber(i, j, x, y);
  }

  /** Output image names determine the output index and the background name:
      distinct iterations never write the same image file. */
  lemma OutputImageNameInjective(i: nat, j: nat, oi: string, oj: string)
    requires OutputImageName(i, oi) == OutputImageName(j, oj)
    ensures i == j && oi == oj
  {
    AfterOutputPrefix(i, j, oi, oj);
  }

  /** Label file names determine the output index. */
  lemma OutputLabelNameInjective(i: nat, j: nat, oi: string, oj: string)
    requires OutputLabelName(i, oi) == OutputLabelName(j, oj)
    ensures i == j
  {
    assert OutputLabelName(i, oi) == OutputPrefix + NatToString(i) + "_" + (Stem(oi) + ".txt");
    assert OutputLabelName(j, oj) == OutputPrefix + NatToString(j) + "_" + (Stem(oj) + ".txt");
    AfterOutputPrefix(i, j, Stem(oi) + ".txt", Stem(oj) + ".txt");
  }

  /** The label file of `stem.ext` is named after the same stem as its image. */
  lemma OutputLabelNameOfExtended(idx: nat, stem: string, ext: string)
    requires !AllDots(stem) && '.' !in ext
    ensures OutputImageName(idx, stem + "." + ext) == OutputPrefix + NatToString(idx) + "_" + stem + "." + ext
    ensures OutputLabelName(idx, stem + "." + ext) == OutputPrefix + NatToString(idx) + "_" + stem + ".txt"
  {
    StemOfExtended(stem, ext);
  }
}

=== FILE: numeric.dfy ===
/**
 Python's `int()` applied to a float: truncation toward zero.
 Floats are modelled as mathematical reals.
 */
module Numeric {

  /** `int(r)`: the integer part of `r`, rounding toward zero. */
  function Trunc(r: real): (n: int)
    ensures 0.0 <= r ==> n as real <= r < n as real + 1.0
    ensures r < 0.0 ==> n as real - 1.0 < r <= n as real
  {
    if r >= 0.0 then r.Floor else -((-r).Floor)
  }

  /** Truncation is the identity on whole numbers. */
  lemma TruncOfWhole(n: int)
    ensures Trunc(n as real) == n
  {
  }

  /** For a positive bound `k`, `Trunc(r) < k` holds exactly when `r < k`. */
  lemma TruncBelow(r: real, k: int)
    requires 1 <= k
    ensures Trunc(r) < k <==> r < k as real
  {
  }

  /** For a non-negative bound `k`, `Trunc(r) > k` holds exactly when `r >= k + 1`. */
  lemma TruncAbove(r: real, k: int)
    requires 0 <= k
    ensures Trunc(r) > k <==> r >= (k + 1) as real
  {
  }

  function Max(a: int, b: int): int { if a >= b then a else b }

  function Min(a: int, b: int): int { if a <= b then a else b }
}

=== FILE: outcomes.dfy ===
/**
 Failure-carrying values shared by the model: an `Option` for the
 "returns None" paths of the Python code and a `Result` for the paths
 where the Python code raises.
 */
module Outcomes {

  datatype Option<+T> = None | Some(value: T)

  /** The Python exceptions the modelled code can raise. */
  datatype PyError =
    | IndexError   // random.choice on an empty list
    | ValueError   // float() on a non-numeric token, randint on an empty range
    | TypeError    // merging a mapping into a value that is not a dict
    | KeyError     // subscripting a settings dict with an absent key
    | AttributeError  // calling `.items()` on a settings file that is not a mapping

  datatype Result<+T> = Ok(value: T) | Err(error: PyError)
}

=== FILE: raster.dfy ===
/**
 Images as the numpy arrays OpenCV returns: `height` rows of `width`
 BGR pixels. Only the slicing and slice assignment the pipeline performs
 are modelled.
 */
module Raster {
  import opened Boxes

  newtype byte = x: int | 0 <= x < 256

  datatype Pixel = Bgr(b: byte, g: byte, r: byte)

  datatype Image = Image(height: nat, width: nat, rows: seq<seq<Pixel>>)

  /** The rows agree with the recorded shape. */
  predicate Wf(img: Image)
  {
    |img.rows| == img.height && forall y :: 0 <= y < |img.rows| ==> |img.rows[y]| == img.width
  }

  /** What `cv2.imread` returns when it succeeds: a non-empty image. */
  predicate Loaded(img: Image)
  {
    Wf(img) && img.height >= 1 && img.width >= 1
  }

  /** `row[px:px+len(seg)] = seg` */
  function SpliceRow(row: seq<Pixel>, seg: seq<Pixel>, px: nat): (r: seq<Pixel>)
    requires px + |seg| <= |row|
    ensures |r| == |row|
    ensures forall x :: 0 <= x < |r| ==> r[x] == (if px <= x < px + |seg| then seg[x - px] else row[x])
  {
    row[..px] + seg + row[px + |seg|..]
  }

  /** `canvas[py:py+h, px:px+w] = obj` for an object that fits inside the canvas:
      the covered pixels take the object's values and all others keep theirs. */
  function Paste(canvas: Image, obj: Image, px: nat, py: nat): (r: Image)
    requires Wf(canvas) && Wf(obj)
    requires px + obj.width <= canvas.width && py + obj.height <= canvas.height
    ensures Wf(r) && r.height == canvas.height && r.width == canvas.width
    ensures forall y, x :: 0 <= y < r.height && 0 <= x < r.width ==>
      r.rows[y][x] == (if InRegion(Box(px, py, px + obj.width, py + obj.height), x, y)
                       then obj.rows[y - py][x - px] else canvas.rows[y][x])
  {
    Image(canvas.height, canvas.width,
      seq(canvas.height, y requires 0 <= y < canvas.height => PastedRow(canvas, obj, px, py, y)))
  }

  /** Row `y` of `Paste(canvas, obj, px, py)`. */
  function PastedRow(canvas: Image, obj: Image, px: nat, py: nat, y: nat): (r: seq<Pixel>)
    requires Wf(canvas) && Wf(obj) && y < canvas.height
    requires px + obj.width <= canvas.width && py + obj.height <= canvas.height
    ensures |r| == canvas.width
    ensures forall x :: 0 <= x < |r| ==>
      r[x] == (if InRegion(Box(px, py, px + obj.width, py + obj.height), x, y) then obj.rows[y - py][x - px] else canvas.rows[y][x])
  {
    if py <= y < py + obj.height then SpliceRow(canvas.rows[y], obj.rows[y - py], px)
    else canvas.rows[y]
  }

  /** `img[y1:y2, x1:x2]` for bounds inside the image. */
  function Crop(img: Image, x1: nat, y1: nat, x2: nat, y2: nat): (r: Image)
    requires Wf(img) && x1 <= x2 <= img.width && y1 <= y2 <= img.height
    ensures Wf(r) && r.width == x2 - x1 && r.height == y2 - y1
    ensures forall y, x :: 0 <= y < r.height && 0 <= x < r.width ==>
      r.rows[y][x] == img.rows[y1 + y][x1 + x]
  {
    Image(y2 - y1, x2 - x1, seq(y2 - y1, y requires 0 <= y < y2 - y1 => img.rows[y1 + y][x1..x2]))
  }

  /** Two well-formed images with the same shape and the same pixels are equal. */
  lemma SamePixels(a: Image, b: Image)
    requires Wf(a) && Wf(b) && a.height == b.height && a.width == b.width
    requires forall y, x :: 0 <= y < a.height && 0 <= x < a.width ==> a.rows[y][x] == b.rows[y][x]
    ensures a == b
  {
    forall y | 0 <= y < a.height
      ensures a.rows[y] == b.rows[y]
    {
      assert forall x :: 0 <= x < a.width ==> a.rows[y][x] == b.rows[y][x];
    }
  }

  /** Pasting a crop back where it was cut from leaves the image unchanged. */
  lemma PasteCropIdentity(img: Image, x1: nat, y1: nat, x2: nat, y2: nat)
    requires Wf(img) && x1 <= x2 <= img.width && y1 <= y2 <= img.height
    ensures Paste(img, Crop(img, x1, y1, x2, y2), x1, y1) == img
  {
    SamePixels(Paste(img, Crop(img, x1, y1, x2, y2), x1, y1), img);
  }

  /** Pasting the same object at the same place twice is the same as once. */
  lemma PasteIdempotent(canvas: Image, obj: Image, px: nat, py: nat)
    requires Wf(canvas) && Wf(obj)
    requires px + obj.width <= canvas.width && py + obj.height <= canvas.height
    ensures Paste(Paste(canvas, obj, px, py), obj, px, py) == Paste(canvas, obj, px, py)
  {
    var once := Paste(canvas, obj, px, py);
    SamePixels(Paste(once, obj, px, py), once);
  }
}

=== FILE: synthesis.dfy ===
/**
 The compositor: pastes resized object crops onto a background image at
 random positions that do not collide with the objects already placed, and
 writes one label per placed object. Randomness is supplied by the caller as
 raw draws; image reading, the rotate/colour transform and the pixel
 resampling of `cv2.resize` are collaborators passed in as functions.
 */
module Synthesis {
  import opened Outcomes
  import opened Numeric
  import opened Draws
  import opened Raster
  import opened Boxes
  import opened Naming
  import Cropping

  /** Objects smaller than this on either side are rejected. */
  const MinSide: int := 10

  /** Positions sampled per object before giving up. */
  const MaxAttempts: nat := 50

  // ---------------------------------------------------------------------
  // Collaborators and draws
  // ---------------------------------------------------------------------

  /** An image as `cv2.imread` returns it when it succeeds: well formed and non-empty. */
  type Picture = img: Image | Loaded(img) witness Image(1, 1, [[Bgr(0, 0, 0)]])

  /** What the compositor calls but does not compute itself: `cv2.imread` on the
      background and object folders (`None` when the file cannot be read),
      `_apply_transformations` with its random draw, and the pixel values
      `cv2.resize` produces at column `x`, row `y` of the requested size. */
  datatype Collaborators = Collaborators(
    readBackground: string -> Option<Picture>,
    readObject: string -> Option<Picture>,
    transform: (Picture, nat) -> Picture,
    resample: (Picture, nat, nat) -> (nat, nat) -> Pixel)

  /** The `w`-by-`h` image whose pixel at column `x`, row `y` is `px(x, y)`. */
  function Render(w: nat, h: nat, px: (nat, nat) -> Pixel): (r: Image)
    ensures Wf(r) && r.width == w && r.height == h
  {
    Image(h, w, seq(h, y requires 0 <= y < h => seq(w, x requires 0 <= x < w => px(x, y))))
  }

  /** The random draws spent on one object: which file to take, the scale factor
      (computed by the caller from the area ratio), the transform's draw, and the
      raw `(x, y)` draws of each placement attempt. */
  datatype ObjectDraw = ObjectDraw(pick: nat, scale: real, twist: nat, attempt: nat -> (nat, nat))

  // ---------------------------------------------------------------------
  // `_resize_object`
  // ---------------------------------------------------------------------

  /** The size `_resize_object` gives a `w`-by-`h` image scaled by `scale`:
      `int()` of each scaled side, or `None` when a side falls below `MinSide`
      or exceeds the canvas. */
  function ResizedSize(w: nat, h: nat, scale: real, maxW: int, maxH: int): (r: Option<(nat, nat)>)
    ensures r.Some? ==> MinSide <= r.value.0 <= maxW && MinSide <= r.value.1 <= maxH
    ensures r.Some? ==> r.value.0 == Trunc(w as real * scale) && r.value.1 == Trunc(h as real * scale)
  {
    var newW := Trunc(w as real * scale);
    var newH := Trunc(h as real * scale);
    if newW < MinSide || newH < MinSide || newW > maxW || newH > maxH then None
    else Some((newW, newH))
  }

  /** An object is kept exactly when both scaled sides, as reals, lie in
      `[MinSide, max + 1)`: truncation is what lets `max + 0.9` through. */
  lemma ResizeAcceptedIff(w: nat, h: nat, scale: real, maxW: int, maxH: int)
    ensures ResizedSize(w, h, scale, maxW, maxH).Some? <==>
      && MinSide as real <= w as real * scale < (maxW + 1) as real
      && MinSide as real <= h as real * scale < (maxH + 1) as real
  {
    var sw := w as real * scale;
    var sh := h as real * scale;
    TruncBelow(sw, MinSide);
    TruncBelow(sh, MinSide);
    if maxW >= 0 {
      TruncAbove(sw, maxW);
    }
    if maxH >= 0 {
      TruncAbove(sh, maxH);
    }
  }

  /** `_resize_object(img, scale, max_w, max_h)`: the resampled image, or `None`. */
  function Resize(c: Collaborators, img: Picture, scale: real, maxW: int, maxH: int): (r: Option<Image>)
    ensures r.None? <==> ResizedSize(img.width, img.height, scale, maxW, maxH).None?
    ensures r.Some? ==>
      && Loaded(r.value)
      && r.value.width == ResizedSize(img.width, img.height, scale, maxW, maxH).value.0
      && r.value.height == ResizedSize(img.width, img.height, scale, maxW, maxH).value.1
  {
    match ResizedSize(img.width, img.height, scale, maxW, maxH)
    case None => None
    case Some((w, h)) => Some(Render(w, h, c.resample(img, w, h)))
  }

  /** The object as it will be pasted: transformed, then resized to fit a
      `canvasW`-by-`canvasH` canvas, as `_try_place_object` does before its attempts. */
  function FinalObject(c: Collaborators, obj: Picture, d: ObjectDraw, canvasW: nat, canvasH: nat): (r: Option<Image>)
    ensures r.Some? ==> Loaded(r.value) && MinSide <= r.value.width <= canvasW && MinSide <= r.value.height <= canvasH
  {
    Resize(c, c.transform(obj, d.twist), d.scale, canvasW, canvasH)
  }

  // ---------------------------------------------------------------------
  // `_get_random_position` and the candidate box
  // ---------------------------------------------------------------------

  /** Columns `[x1, x2)` and rows `[y1, y2)` are non-empty and inside a
      `w`-by-`h` canvas. */
  predicate Within(b: Box, w: int, h: int)
  {
    0 <= b.x1 < b.x2 <= w && 0 <= b.y1 < b.y2 <= h
  }

  /** The candidate box of one attempt: the top-left corner drawn by
      `_get_random_position` and the object's extent, as `new_box` in `_try_place_object`. */
  function Candidate(w: nat, h: nat, canvasW: nat, canvasH: nat, raw: (nat, nat)): (b: Box)
    requires w <= canvasW && h <= canvasH
    ensures 0 <= b.x1 <= canvasW - w && 0 <= b.y1 <= canvasH - h
    ensures b.x2 - b.x1 == w && b.y2 - b.y1 == h
  {
    var px := RandInt(0, canvasW - w, raw.0);
    var py := RandInt(0, canvasH - h, raw.1);
    Box(px, py, px + w, py + h)
  }

  /** A candidate for a non-empty object lies inside the canvas. */
  lemma CandidateWithin(w: nat, h: nat, canvasW: nat, canvasH: nat, raw: (nat, nat))
    requires 1 <= w <= canvasW && 1 <= h <= canvasH
    ensures Within(Candidate(w, h, canvasW, canvasH, raw), canvasW, canvasH)
  {
  }

  /** Every position that keeps the object inside the canvas can be drawn. */
  lemma CandidateReaches(w: nat, h: nat, canvasW: nat, canvasH: nat, px: nat, py: nat)
    requires w <= canvasW && h <= canvasH
    requires px <= canvasW - w && py <= canvasH - h
    ensures Candidate(w, h, canvasW, canvasH, (px, py)) == Box(px, py, px + w, py + h)
  {
    RandIntReaches(0, canvasW - w, px);
    RandIntReaches(0, canvasH - h, py);
  }

  // ---------------------------------------------------------------------
  // The attempt loop of `_try_place_object`
  // ---------------------------------------------------------------------

  /** The candidate of attempt `i`. */
  function CandidateAt(w: nat, h: nat, canvasW: nat, canvasH: nat, attempt: nat -> (nat, nat), i: nat): Box
    requires w <= canvasW && h <= canvasH
  {
    Candidate(w, h, canvasW, canvasH, attempt(i))
  }

  /** The loop over attempts `k .. MaxAttempts - 1`: the first attempt whose
      candidate collides with no existing box, or `None` when every one does. */
  function FirstFree(w: nat, h: nat, canvasW: nat, canvasH: nat, existing: seq<Box>,
                     attempt: nat -> (nat, nat), k: nat): (r: Option<nat>)
    requires w <= canvasW && h <= canvasH && k <= MaxAttempts
    ensures r.Some? ==> k <= r.value < MaxAttempts
    ensures r.Some? ==> !CollidesWithAny(CandidateAt(w, h, canvasW, canvasH, attempt, r.value), existing)
    ensures r.Some? ==> forall i :: k <= i < r.value ==>
      CollidesWithAny(CandidateAt(w, h, canvasW, canvasH, attempt, i), existing)
    ensures r.None? ==> forall i :: k <= i < MaxAttempts ==>
      CollidesWithAny(CandidateAt(w, h, canvasW, canvasH, attempt, i), existing)
    decreases MaxAttempts - k
  {
    if k == MaxAttempts then None
    else if !CollidesWithAny(CandidateAt(w, h, canvasW, canvasH, attempt, k), existing) then Some(k)
    else FirstFree(w, h, canvasW, canvasH, existing, attempt, k + 1)
  }

  /** With no boxes placed yet, the first attempt always succeeds. */
  lemma FirstFreeOnEmpty(w: nat, h: nat, canvasW: nat, canvasH: nat, attempt: nat -> (nat, nat))
    requires w <= canvasW && h <= canvasH
    ensures FirstFree(w, h, canvasW, canvasH, [], attempt, 0) == Some(0)
  {
  }

  // ---------------------------------------------------------------------
  // `_generate_label_line`
  // ---------------------------------------------------------------------

  /** One label: the class id and the box normalised to the canvas, as the
      four reals the label line prints. */
  datatype Label = Label(classId: string, xc: real, yc: real, bw: real, bh: real)

  lemma DivMul(a: real, w: real)
    requires w != 0.0
    ensures (a / w) * w == a
  {
  }

  /** `_generate_label_line(box, w, h, class_id)`, before formatting: the box's
      centre and extent, each divided by the canvas side along its axis. */
  function LabelOf(b: Box, w: nat, h: nat, cid: string): (l: Label)
    requires w > 0 && h > 0
    ensures l.classId == cid
    ensures l.bw * w as real == (b.x2 - b.x1) as real && l.bh * h as real == (b.y2 - b.y1) as real
    ensures 2.0 * l.xc * w as real == (b.x1 + b.x2) as real && 2.0 * l.yc * h as real == (b.y1 + b.y2) as real
  {
    DivMul((b.x2 - b.x1) as real, w as real);
    DivMul((b.y2 - b.y1) as real, h as real);
    DivMul((b.x1 + b.x2) as real / 2.0, w as real);
    DivMul((b.y1 + b.y2) as real / 2.0, h as real);
    Label(cid, (b.x1 + b.x2) as real / 2.0 / w as real, (b.y1 + b.y2) as real / 2.0 / h as real,
          (b.x2 - b.x1) as real / w as real, (b.y2 - b.y1) as real / h as real)
  }

  /** Along one axis: the centre and extent normalised by `n`, scaled back, give
      the two edges again. */
  lemma EdgesBack(lo: int, hi: int, n: nat)
    requires n > 0
    ensures var c := (lo + hi) as real / 2.0 / n as real;
      var e := (hi - lo) as real / n as real;
      (c - e / 2.0) * n as real == lo as real && (c + e / 2.0) * n as real == hi as real
  {
    DivMul((lo + hi) as real / 2.0, n as real);
    DivMul((hi - lo) as real, n as real);
  }

  /** A label gives its box back: `x1 = (xc - bw/2)·w`, `x2 = (xc + bw/2)·w`, and
      likewise along `y`. */
  lemma LabelInverse(b: Box, w: nat, h: nat, cid: string)
    requires w > 0 && h > 0
    ensures var l := LabelOf(b, w, h, cid);
      && (l.xc - l.bw / 2.0) * w as real == b.x1 as real
      && (l.xc + l.bw / 2.0) * w as real == b.x2 as real
      && (l.yc - l.bh / 2.0) * h as real == b.y1 as real
      && (l.yc + l.bh / 2.0) * h as real == b.y2 as real
  {
    EdgesBack(b.x1, b.x2, w);
    EdgesBack(b.y1, b.y2, h);
  }

  lemma DivUnit(a: real, w: real)
    requires 0.0 <= a <= w && 0.0 < w
    ensures 0.0 <= a / w <= 1.0
  {
    DivMul(a, w);
    assert a / w <= 1.0 by {
      DivMul(w, w);
    }
  }

  /** For a box inside the canvas all four label values lie in `[0, 1]`, and the
      extents are positive. */
  lemma LabelInUnitRange(b: Box, w: nat, h: nat, cid: string)
    requires w > 0 && h > 0 && Within(b, w, h)
    ensures var l := LabelOf(b, w, h, cid);
      && 0.0 <= l.xc <= 1.0 && 0.0 <= l.yc <= 1.0
      && 0.0 < l.bw <= 1.0 && 0.0 < l.bh <= 1.0
  {
    DivUnit((b.x1 + b.x2) as real / 2.0, w as real);
    DivUnit((b.y1 + b.y2) as real / 2.0, h as real);
    DivUnit((b.x2 - b.x1) as real, w as real);
    DivUnit((b.y2 - b.y1) as real, h as real);
    assert (b.x2 - b.x1) as real / w as real > 0.0;
    assert (b.y2 - b.y1) as real / h as real > 0.0;
  }

  /** The extractor reading back a label before its 6-decimal rounding recovers
      the pasted box, except that a right or bottom edge on the canvas border is
      clamped to the last column or row. */
  lemma LabelReadBack(b: Box, w: nat, h: nat, cid: string)
    requires w > 0 && h > 0 && Within(b, w, h)
    ensures var l := LabelOf(b, w, h, cid);
      Cropping.CropBox(Cropping.Annotation(cid, l.xc, l.yc, l.bw, l.bh), w, h) ==
        Box(b.x1, b.y1, Min(b.x2, w - 1), Min(b.y2, h - 1))
  {
    var l := LabelOf(b, w, h, cid);
    LabelInverse(b, w, h, cid);
    CornersFromEdges(Cropping.Annotation(cid, l.xc, l.yc, l.bw, l.bh), w, h, b);
  }

  /** An annotation whose edges, scaled by the image size, are whole numbers has
      exactly those numbers as its pixel corners. */
  lemma CornersFromEdges(a: Cropping.Annotation, w: nat, h: nat, b: Box)
    requires (a.xc - a.bw / 2.0) * w as real == b.x1 as real
    requires (a.xc + a.bw / 2.0) * w as real == b.x2 as real
    requires (a.yc - a.bh / 2.0) * h as real == b.y1 as real
    requires (a.yc + a.bh / 2.0) * h as real == b.y2 as real
    ensures Cropping.PixelCorners(a, w, h) == b
  {
    TruncOfWhole(b.x1);
    TruncOfWhole(b.y1);
    TruncOfWhole(b.x2);
    TruncOfWhole(b.y2);
  }

  // ---------------------------------------------------------------------
  // `_try_place_object`
  // ---------------------------------------------------------------------

  /** What a successful placement hands back: the box, its label and the image to paste. */
  datatype Placement = Placement(box: Box, labelLine: Label, image: Image)

  /** `_try_place_object(b_img, b_name, a_h, a_w, existing_boxes)`: transform and
      resize the object, then take the first of `MaxAttempts` candidates that
      collides with no existing box; the class id is parsed from the file name. */
  function TryPlaceObject(c: Collaborators, obj: Picture, name: string, canvasW: nat, canvasH: nat,
                          existing: seq<Box>, d: ObjectDraw): (r: Option<Placement>)
    ensures r.Some? ==> Within(r.value.box, canvasW, canvasH) && !CollidesWithAny(r.value.box, existing)
    ensures r.Some? ==>
      && Loaded(r.value.image)
      && r.value.image.width == r.value.box.x2 - r.value.box.x1
      && r.value.image.height == r.value.box.y2 - r.value.box.y1
    ensures r.Some? ==> r.value.labelLine == LabelOf(r.value.box, canvasW, canvasH, ClassIdOf(name))
  {
    match FinalObject(c, obj, d, canvasW, canvasH)
    case None => None
    case Some(f) =>
      match FirstFree(f.width, f.height, canvasW, canvasH, existing, d.attempt, 0)
      case None => None
      case Some(k) =>
        var box := CandidateAt(f.width, f.height, canvasW, canvasH, d.attempt, k);
        CandidateWithin(f.width, f.height, canvasW, canvasH, d.attempt(k));
        Some(Placement(box, LabelOf(box, canvasW, canvasH, ClassIdOf(name)), f))
  }

  /** A resized object is given up on exactly when all `MaxAttempts` candidates
      collide; otherwise it goes to the first candidate that does not, with the
      resized image as its pixels. */
  lemma TryPlaceObjectAttempts(c: Collaborators, obj: Picture, name: string, canvasW: nat, canvasH: nat,
                               existing: seq<Box>, d: ObjectDraw)
    requires FinalObject(c, obj, d, canvasW, canvasH).Some?
    ensures var f := FinalObject(c, obj, d, canvasW, canvasH).value;
      TryPlaceObject(c, obj, name, canvasW, canvasH, existing, d).None? <==>
        forall i :: 0 <= i < MaxAttempts ==> CollidesWithAny(CandidateAt(f.width, f.height, canvasW, canvasH, d.attempt, i), existing)
    ensures var f := FinalObject(c, obj, d, canvasW, canvasH).value;
      var r := TryPlaceObject(c, obj, name, canvasW, canvasH, existing, d);
      r.Some? ==>
        && r.value.image == f
        && exists k :: 0 <= k < MaxAttempts && r.value.box == CandidateAt(f.width, f.height, canvasW, canvasH, d.attempt, k)
             && forall j :: 0 <= j < k ==> CollidesWithAny(CandidateAt(f.width, f.height, canvasW, canvasH, d.attempt, j), existing)
    ensures FinalObject(c, obj, d, canvasW, canvasH).None? ==> TryPlaceObject(c, obj, name, canvasW, canvasH, existing, d).None?
  {
    var f := FinalObject(c, obj, d, canvasW, canvasH).value;
    var ff := FirstFree(f.width, f.height, canvasW, canvasH, existing, d.attempt, 0);
    if ff.Some? {
      assert !CollidesWithAny(CandidateAt(f.width, f.height, canvasW, canvasH, d.attempt, ff.value), existing);
    }
  }

  /** An object too small or too large after scaling is never placed. */
  lemma RejectedSizeNotPlaced(c: Collaborators, obj: Picture, name: string, canvasW: nat, canvasH: nat,
                              existing: seq<Box>, d: ObjectDraw)
    requires var t := c.transform(obj, d.twist);
      ResizedSize(t.width, t.height, d.scale, canvasW, canvasH).None?
    ensures TryPlaceObject(c, obj, name, canvasW, canvasH, existing, d).None?
  {
  }

  // ---------------------------------------------------------------------
  // The scene built by `_synthesize_image_objects`
  // ---------------------------------------------------------------------

  /** The loop state of `_synthesize_image_objects`: the canvas being painted,
      `existing_boxes` and `label_lines`, together with the image pasted for
      each box and the object file it came from. */
  datatype Scene = Scene(canvas: Image, boxes: seq<Box>, labels: seq<Label>, objects: seq<Image>, names: seq<string>)

  /** Some paste region of `boxes` holds `(x, y)`. */
  predicate InAnyRegion(boxes: seq<Box>, x: int, y: int)
  {
    exists j :: 0 <= j < |boxes| && InRegion(boxes[j], x, y)
  }

  /** The four lists run in parallel. */
  predicate Parallel(s: Scene)
  {
    |s.labels| == |s.boxes| && |s.objects| == |s.boxes| && |s.names| == |s.boxes|
  }

  /** Entry `j`: a box inside the canvas, an image of exactly the box's size, an
      object file from the pool, and the label `_generate_label_line` gives the box. */
  ghost predicate PlacedWell(bg: Image, pool: seq<string>, s: Scene, j: int)
    requires Loaded(bg) && Parallel(s) && 0 <= j < |s.boxes|
  {
    && Within(s.boxes[j], bg.width, bg.height)
    && Framed(s.canvas, s.boxes[j], s.objects[j])
    && s.names[j] in pool
    && s.labels[j] == LabelOf(s.boxes[j], bg.width, bg.height, ClassIdOf(s.names[j]))
  }

  /** `obj` has exactly the size of `b`, and `b` lies inside `canvas`. */
  predicate Framed(canvas: Image, b: Box, obj: Image)
  {
    && Wf(canvas) && Wf(obj)
    && 0 <= b.x1 && b.x2 <= canvas.width && 0 <= b.y1 && b.y2 <= canvas.height
    && obj.width == b.x2 - b.x1 && obj.height == b.y2 - b.y1
  }

  /** The canvas shows `obj` throughout the box `b`. */
  ghost predicate ShowsObject(canvas: Image, b: Box, obj: Image)
    requires Framed(canvas, b, obj)
  {
    forall y, x :: InRegion(b, x, y) ==> canvas.rows[y][x] == obj.rows[y - b.y1][x - b.x1]
  }

  /** Outside every box the canvas still shows the background. */
  ghost predicate ShowsBackgroundElsewhere(bg: Image, s: Scene)
    requires Loaded(bg) && Wf(s.canvas) && s.canvas.height == bg.height && s.canvas.width == bg.width
  {
    forall y, x :: 0 <= y < bg.height && 0 <= x < bg.width && !InAnyRegion(s.boxes, x, y) ==>
      s.canvas.rows[y][x] == bg.rows[y][x]
  }

  /** The invariant of the placement loop: the canvas has the background's shape,
      the boxes are pairwise apart, every entry is well placed, every box shows
      its object and every other pixel the background. */
  ghost predicate Composed(bg: Image, pool: seq<string>, s: Scene)
    requires Loaded(bg)
  {
    && Wf(s.canvas) && s.canvas.height == bg.height && s.canvas.width == bg.width
    && Parallel(s)
    && PairwiseApart(s.boxes)
    && (forall j :: 0 <= j < |s.boxes| ==>
          PlacedWell(bg, pool, s, j) && ShowsObject(s.canvas, s.boxes[j], s.objects[j]))
    && ShowsBackgroundElsewhere(bg, s)
  }

  /** The scene before the first object: the background itself and empty lists. */
  function EmptyScene(bg: Image): Scene
  {
    Scene(bg, [], [], [], [])
  }

  lemma EmptySceneComposed(bg: Image, pool: seq<string>)
    requires Loaded(bg)
    ensures Composed(bg, pool, EmptyScene(bg))
  {
  }

  /** The body of the loop in `_synthesize_image_objects` after a successful
      placement: paste the object at its box and record it. */
  function Extend(s: Scene, p: Placement, name: string): Scene
    requires Wf(s.canvas) && Wf(p.image) && 0 <= p.box.x1 && 0 <= p.box.y1
    requires p.box.x1 + p.image.width <= s.canvas.width && p.box.y1 + p.image.height <= s.canvas.height
  {
    Scene(Paste(s.canvas, p.image, p.box.x1, p.box.y1),
          s.boxes + [p.box], s.labels + [p.labelLine], s.objects + [p.image], s.names + [name])
  }

  /** The conditions under which `TryPlaceObject` hands back a placement. */
  ghost predicate Fits(bg: Image, pool: seq<string>, s: Scene, p: Placement, name: string)
    requires Loaded(bg)
  {
    && Within(p.box, bg.width, bg.height) && !CollidesWithAny(p.box, s.boxes)
    && Wf(p.image) && p.image.width == p.box.x2 - p.box.x1 && p.image.height == p.box.y2 - p.box.y1
    && name in pool && p.labelLine == LabelOf(p.box, bg.width, bg.height, ClassIdOf(name))
  }

  /** A paste at `b` leaves every pixel of a box `e` that `b` does not collide with. */
  lemma PasteSparesApart(canvas: Image, obj: Image, b: Box, e: Box, x: int, y: int)
    requires Wf(canvas) && Wf(obj) && 0 <= b.x1 && 0 <= b.y1
    requires b.x1 + obj.width <= canvas.width && b.y1 + obj.height <= canvas.height
    requires obj.width == b.x2 - b.x1 && obj.height == b.y2 - b.y1
    requires !Overlaps(b, e) && InRegion(e, x, y) && 0 <= y < canvas.height && 0 <= x < canvas.width
    ensures Paste(canvas, obj, b.x1, b.y1).rows[y][x] == canvas.rows[y][x]
  {
  }

  /** A paste shows the pasted image throughout its own box. */
  lemma PasteShowsObject(canvas: Image, b: Box, obj: Image)
    requires Framed(canvas, b, obj)
    ensures Framed(Paste(canvas, obj, b.x1, b.y1), b, obj)
    ensures ShowsObject(Paste(canvas, obj, b.x1, b.y1), b, obj)
  {
  }

  /** A paste at `b` leaves a box `e` it does not collide with showing what it showed. */
  lemma PasteKeepsShowing(canvas: Image, b: Box, obj: Image, e: Box, shown: Image)
    requires Framed(canvas, b, obj) && Framed(canvas, e, shown) && ShowsObject(canvas, e, shown)
    requires !Overlaps(b, e)
    ensures Framed(Paste(canvas, obj, b.x1, b.y1), e, shown)
    ensures ShowsObject(Paste(canvas, obj, b.x1, b.y1), e, shown)
  {
    var t := Paste(canvas, obj, b.x1, b.y1);
    forall y, x | InRegion(e, x, y)
      ensures t.rows[y][x] == shown.rows[y - e.y1][x - e.x1]
    {
      PasteSparesApart(canvas, obj, b, e, x, y);
    }
  }

  /** After the paste every entry is still well placed and every box shows its
      own object: the new box the new image, the earlier ones theirs, because
      boxes that do not collide have disjoint paste regions. */
  lemma ExtendShowsObjects(bg: Image, pool: seq<string>, s: Scene, p: Placement, name: string)
    requires Loaded(bg) && Composed(bg, pool, s) && Fits(bg, pool, s, p, name)
    ensures var t := Extend(s, p, name);
      && Parallel(t) && Wf(t.canvas) && t.canvas.height == bg.height && t.canvas.width == bg.width
      && forall j :: 0 <= j < |t.boxes| ==>
           PlacedWell(bg, pool, t, j) && ShowsObject(t.canvas, t.boxes[j], t.objects[j])
  {
    var t := Extend(s, p, name);
    forall j | 0 <= j < |t.boxes|
      ensures PlacedWell(bg, pool, t, j) && ShowsObject(t.canvas, t.boxes[j], t.objects[j])
    {
      if j < |s.boxes| {
        assert PlacedWell(bg, pool, s, j) && ShowsObject(s.canvas, s.boxes[j], s.objects[j]);
        assert !Overlaps(p.box, s.boxes[j]);
        assert t.boxes[j] == s.boxes[j] && t.objects[j] == s.objects[j];
        assert t.names[j] == s.names[j] && t.labels[j] == s.labels[j];
        PasteKeepsShowing(s.canvas, p.box, p.image, s.boxes[j], s.objects[j]);
      } else {
        assert t.boxes[j] == p.box && t.objects[j] == p.image;
        assert t.names[j] == name && t.labels[j] == p.labelLine;
        PasteShowsObject(s.canvas, p.box, p.image);
      }
    }
  }

  /** After the paste, a pixel outside every box, the new one included, still
      shows the background. */
  lemma ExtendKeepsBackground(bg: Image, pool: seq<string>, s: Scene, p: Placement, name: string)
    requires Loaded(bg) && Composed(bg, pool, s) && Fits(bg, pool, s, p, name)
    ensures var t := Extend(s, p, name);
      Wf(t.canvas) && t.canvas.height == bg.height && t.canvas.width == bg.width && ShowsBackgroundElsewhere(bg, t)
  {
    var t := Extend(s, p, name);
    forall y, x | 0 <= y < bg.height && 0 <= x < bg.width && !InAnyRegion(t.boxes, x, y)
      ensures t.canvas.rows[y][x] == bg.rows[y][x]
    {
      assert t.boxes[|s.boxes|] == p.box;
      assert !InAnyRegion(s.boxes, x, y) by {
        forall j | 0 <= j < |s.boxes|
          ensures !InRegion(s.boxes[j], x, y)
        {
          assert t.boxes[j] == s.boxes[j];
        }
      }
    }
  }

  /** One placement preserves the loop invariant. */
  lemma ExtendComposed(bg: Image, pool: seq<string>, s: Scene, p: Placement, name: string)
    requires Loaded(bg) && Composed(bg, pool, s) && Fits(bg, pool, s, p, name)
    ensures Composed(bg, pool, Extend(s, p, name))
  {
    ExtendShowsObjects(bg, pool, s, p, name);
    ExtendKeepsBackground(bg, pool, s, p, name);
    AppendApart(s.boxes, p.box);
  }

  // ---------------------------------------------------------------------
  // `_synthesize_image_objects`
  // ---------------------------------------------------------------------

  /** The draws spent on one background: `num_objects`, then one object draw per
      iteration. */
  datatype SceneDraw = SceneDraw(count: nat, objectDraw: nat -> ObjectDraw)

  /** One iteration of the loop once the object file `name` is chosen: read it,
      skip it when unreadable or unplaceable, paste and record it otherwise. */
  function Step(c: Collaborators, bg: Image, pool: seq<string>, s: Scene, name: string, d: ObjectDraw): (t: Scene)
    requires Loaded(bg) && Composed(bg, pool, s) && name in pool
    ensures Composed(bg, pool, t)
    ensures t == s || (s.boxes <= t.boxes && |t.boxes| == |s.boxes| + 1 && s.labels <= t.labels)
    ensures c.readObject(name).None? ==> t == s
    ensures c.readObject(name).Some? ==>
      var p := TryPlaceObject(c, c.readObject(name).value, name, bg.width, bg.height, s.boxes, d);
      && (p.None? ==> t == s)
      && (p.Some? ==> t == Extend(s, p.value, name))
  {
    match c.readObject(name)
    case None => s
    case Some(obj) =>
      match TryPlaceObject(c, obj, name, bg.width, bg.height, s.boxes, d)
      case None => s
      case Some(p) =>
        ExtendComposed(bg, pool, s, p, name);
        Extend(s, p, name)
  }

  /** Iterations `i .. count - 1` of the loop, starting from scene `s`. The
      `random.choice` of an object file raises `IndexError` on an empty pool. */
  function Compose(c: Collaborators, bg: Image, pool: seq<string>, d: nat -> ObjectDraw,
                   count: nat, i: nat, s: Scene): (r: Result<Scene>)
    requires Loaded(bg) && i <= count && Composed(bg, pool, s)
    ensures r.Err? <==> i < count && |pool| == 0
    ensures r.Err? ==> r.error == IndexError
    ensures r.Ok? ==> Composed(bg, pool, r.value)
    ensures r.Ok? ==> s.boxes <= r.value.boxes && s.labels <= r.value.labels
    ensures r.Ok? ==> |r.value.boxes| <= |s.boxes| + (count - i)
    decreases count - i
  {
    if i == count then Ok(s)
    else
      match Choice(pool, d(i).pick)
      case Err(e) => Err(e)
      case Ok(name) => Compose(c, bg, pool, d, count, i + 1, Step(c, bg, pool, s, name, d(i)))
  }

  /** `_synthesize_image_objects(a_img, b_images, ...)`: draw `num_objects` in
      `[1, max_objects]` (an empty range raises `ValueError`) and run the loop
      from the bare background. */
  function SynthesizeObjects(c: Collaborators, bg: Image, pool: seq<string>, maxObjects: int, d: SceneDraw): (r: Result<Scene>)
    requires Loaded(bg)
    ensures r.Err? <==> maxObjects < 1 || |pool| == 0
    ensures r.Err? ==> r.error == (if maxObjects < 1 then ValueError else IndexError)
    ensures r.Ok? ==> Composed(bg, pool, r.value)
    ensures r.Ok? ==> 1 <= maxObjects && |r.value.labels| <= RandInt(1, maxObjects, d.count) <= maxObjects
  {
    match RandIntChecked(1, maxObjects, d.count)
    case Err(e) => Err(e)
    case Ok(n) =>
      EmptySceneComposed(bg, pool);
      Compose(c, bg, pool, d.objectDraw, n, 0, EmptyScene(bg))
  }

  /** The object file the first iteration of the loop picks. */
  function FirstPick(pool: seq<string>, d: SceneDraw): string
    requires |pool| >= 1
  {
    pool[RandInt(0, |pool| - 1, d.objectDraw(0).pick)]
  }

  /** The loop does place objects: when the first object picked can be read and
      its resized size fits the background, it goes onto the bare background, so
      the scene ends with at least one label. */
  lemma SynthesizeObjectsPlacesFirst(c: Collaborators, bg: Picture, pool: seq<string>, maxObjects: int, d: SceneDraw)
    requires maxObjects >= 1 && |pool| >= 1
    requires c.readObject(FirstPick(pool, d)).Some?
    requires FinalObject(c, c.readObject(FirstPick(pool, d)).value, d.objectDraw(0), bg.width, bg.height).Some?
    ensures SynthesizeObjects(c, bg, pool, maxObjects, d).Ok?
    ensures |SynthesizeObjects(c, bg, pool, maxObjects, d).value.labels| >= 1
  {
    var name := FirstPick(pool, d);
    var obj := c.readObject(name).value;
    var od := d.objectDraw(0);
    var f := FinalObject(c, obj, od, bg.width, bg.height).value;
    var n := RandInt(1, maxObjects, d.count);
    var s0 := EmptyScene(bg);
    EmptySceneComposed(bg, pool);
    FirstFreeOnEmpty(f.width, f.height, bg.width, bg.height, od.attempt);
    var p := TryPlaceObject(c, obj, name, bg.width, bg.height, s0.boxes, od);
    assert p.Some?;
    var s1 := Step(c, bg, pool, s0, name, od);
    assert s1 == Extend(s0, p.value, name);
    assert |s1.labels| == 1;
    assert Choice(pool, od.pick) == Ok(name);
    assert Compose(c, bg, pool, d.objectDraw, n, 0, s0) == Compose(c, bg, pool, d.objectDraw, n, 1, s1);
  }

  /** Every label of a synthesized scene has values in `[0, 1]` and a class id
      parsed from an object file of the pool. */
  lemma SceneLabelsNormalised(c: Collaborators, bg: Image, pool: seq<string>, maxObjects: int, d: SceneDraw, k: int)
    requires Loaded(bg)
    requires SynthesizeObjects(c, bg, pool, maxObjects, d).Ok?
    requires 0 <= k < |SynthesizeObjects(c, bg, pool, maxObjects, d).value.labels|
    ensures var l := SynthesizeObjects(c, bg, pool, maxObjects, d).value.labels[k];
      && 0.0 <= l.xc <= 1.0 && 0.0 <= l.yc <= 1.0 && 0.0 < l.bw <= 1.0 && 0.0 < l.bh <= 1.0
      && exists name :: name in pool && l.classId == ClassIdOf(name)
  {
    var s := SynthesizeObjects(c, bg, pool, maxObjects, d).value;
    assert PlacedWell(bg, pool, s, k);
    LabelInUnitRange(s.boxes[k], bg.width, bg.height, ClassIdOf(s.names[k]));
  }

  // ---------------------------------------------------------------------
  // `_process_single_image` and the run
  // ---------------------------------------------------------------------

  /** The draws spent on one output image. */
  datatype ImageDraw = ImageDraw(pick: nat, scene: SceneDraw)

  /** What one iteration of `synthesize_images` ends in. */
  datatype Outcome =
    | Crashed(error: PyError)      // raised before the `try`: ends the whole run
    | Failed(error: PyError)       // raised inside the `try`: reported, run goes on
    | Unreadable                   // the background could not be read
    | NothingPlaced                // no object was placed, nothing is written
    | Written(imageName: string, labelName: string, image: Image, labels: seq<Label>)

  /** `_process_single_image(idx, a_images, b_images, ...)`. */
  function ProcessSingleImage(c: Collaborators, idx: nat, backgrounds: seq<string>, pool: seq<string>,
                              maxObjects: int, d: ImageDraw): (r: Outcome)
    ensures r.Crashed? <==> |backgrounds| == 0
    ensures r.Crashed? ==> r.error == IndexError
    ensures r.Failed? ==> maxObjects < 1 || |pool| == 0
    ensures r.Written? ==> |r.labels| >= 1 && 1 <= maxObjects && |pool| >= 1
    ensures r.Written? ==>
      exists name :: name in backgrounds && r.imageName == OutputImageName(idx, name) && r.labelName == OutputLabelName(idx, name)
  {
    match Choice(backgrounds, d.pick)
    case Err(e) => Crashed(e)
    case Ok(name) =>
      match c.readBackground(name)
      case None => Unreadable
      case Some(bg) =>
        match SynthesizeObjects(c, bg, pool, maxObjects, d.scene)
        case Err(e) => Failed(e)
        case Ok(s) =>
          if |s.labels| == 0 then NothingPlaced
          else Written(OutputImageName(idx, name), OutputLabelName(idx, name), s.canvas, s.labels)
  }

  /** Output is written exactly when the background is read and at least one
      object is placed; the image written is the composed canvas and the label
      file holds the scene's labels. */
  lemma ProcessSingleImageWrites(c: Collaborators, idx: nat, backgrounds: seq<string>, pool: seq<string>,
                                 maxObjects: int, d: ImageDraw)
    requires |backgrounds| >= 1
    ensures var name := backgrounds[RandInt(0, |backgrounds| - 1, d.pick)];
      var r := ProcessSingleImage(c, idx, backgrounds, pool, maxObjects, d);
      && (r.Unreadable? <==> c.readBackground(name).None?)
      && (c.readBackground(name).Some? ==>
            var bg := c.readBackground(name).value;
            var sc := SynthesizeObjects(c, bg, pool, maxObjects, d.scene);
            && (r.Failed? <==> sc.Err?)
            && (r.Written? <==> sc.Ok? && |sc.value.labels| >= 1)
            && (r.Written? ==>
                  && r.image == sc.value.canvas && r.labels == sc.value.labels
                  && r.imageName == OutputImageName(idx, name) && r.labelName == OutputLabelName(idx, name)))
  {
  }

  /** An iteration writes output whenever the background can be read and the
      first object picked can be read and fits it. */
  lemma ProcessSingleImageReachesWritten(c: Collaborators, idx: nat, backgrounds: seq<string>, pool: seq<string>,
                                         maxObjects: int, d: ImageDraw)
    requires |backgrounds| >= 1 && maxObjects >= 1 && |pool| >= 1
    requires c.readBackground(backgrounds[RandInt(0, |backgrounds| - 1, d.pick)]).Some?
    requires c.readObject(FirstPick(pool, d.scene)).Some?
    requires FinalObject(c, c.readObject(FirstPick(pool, d.scene)).value, d.scene.objectDraw(0),
                         c.readBackground(backgrounds[RandInt(0, |backgrounds| - 1, d.pick)]).value.width,
                         c.readBackground(backgrounds[RandInt(0, |backgrounds| - 1, d.pick)]).value.height).Some?
    ensures ProcessSingleImage(c, idx, backgrounds, pool, maxObjects, d).Written?
  {
    var bg := c.readBackground(backgrounds[RandInt(0, |backgrounds| - 1, d.pick)]).value;
    SynthesizeObjectsPlacesFirst(c, bg, pool, maxObjects, d.scene);
    ProcessSingleImageWrites(c, idx, backgrounds, pool, maxObjects, d);
  }

  /** Iterations `i .. n - 1` of a loop whose iteration `k` ends in `step(k)`,
      stopping after the first uncaught error. */
  function RunSteps(step: nat -> Outcome, n: nat, i: nat): (r: seq<Outcome>)
    requires i <= n
    ensures |r| <= n - i
    decreases n - i
  {
    if i == n then []
    else if step(i).Crashed? then [step(i)]
    else [step(i)] + RunSteps(step, n, i + 1)
  }

  /** Entry `k` of the run is the outcome of iteration `i + k`, and only the last
      entry can be a crash. */
  lemma {:induction false} RunStepsAt(step: nat -> Outcome, n: nat, i: nat, k: nat)
    requires i <= n && k < |RunSteps(step, n, i)|
    ensures RunSteps(step, n, i)[k] == step(i + k)
    ensures k + 1 < |RunSteps(step, n, i)| ==> !step(i + k).Crashed?
    decreases n - i
  {
    if k > 0 {
      RunStepsAt(step, n, i + 1, k - 1);
    }
  }

  /** A run in which no iteration crashes performs all of them; a run whose
      first iteration crashes stops there. */
  lemma {:induction false} RunStepsLength(step: nat -> Outcome, n: nat, i: nat)
    requires i <= n
    ensures (forall k :: i <= k < n ==> !step(k).Crashed?) ==> |RunSteps(step, n, i)| == n - i
    ensures i < n && step(i).Crashed? ==> RunSteps(step, n, i) == [step(i)]
    decreases n - i
  {
    if i < n && !step(i).Crashed? {
      RunStepsLength(step, n, i + 1);
    }
  }

  /** Iteration `idx` of `synthesize_images`. */
  function ImageStep(c: Collaborators, backgrounds: seq<string>, pool: seq<string>,
                     maxObjects: int, draws: nat -> ImageDraw): nat -> Outcome
  {
    (idx: nat) => ProcessSingleImage(c, idx, backgrounds, pool, maxObjects, draws(idx))
  }

  lemma ImageStepApply(c: Collaborators, backgrounds: seq<string>, pool: seq<string>,
                       maxObjects: int, draws: nat -> ImageDraw, idx: nat)
    ensures ImageStep(c, backgrounds, pool, maxObjects, draws)(idx) ==
      ProcessSingleImage(c, idx, backgrounds, pool, maxObjects, draws(idx))
  {
  }

  /** `synthesize_images()`: `num_images` iterations of `_process_single_image`. */
  function Run(c: Collaborators, numImages: nat, backgrounds: seq<string>, pool: seq<string>,
               maxObjects: int, draws: nat -> ImageDraw): (r: seq<Outcome>)
    ensures |r| <= numImages
  {
    RunSteps(ImageStep(c, backgrounds, pool, maxObjects, draws), numImages, 0)
  }

  /** Entry `k` of a run is iteration `k`'s outcome. */
  lemma RunAt(c: Collaborators, numImages: nat, backgrounds: seq<string>, pool: seq<string>,
              maxObjects: int, draws: nat -> ImageDraw, k: nat)
    requires k < |Run(c, numImages, backgrounds, pool, maxObjects, draws)|
    ensures Run(c, numImages, backgrounds, pool, maxObjects, draws)[k] ==
      ProcessSingleImage(c, k, backgrounds, pool, maxObjects, draws(k))
  {
    RunStepsAt(ImageStep(c, backgrounds, pool, maxObjects, draws), numImages, 0, k);
    ImageStepApply(c, backgrounds, pool, maxObjects, draws, k);
  }

  /** Without background images the run crashes on its first iteration; with
      them it carries out all `num_images` iterations. */
  lemma RunLength(c: Collaborators, numImages: nat, backgrounds: seq<string>, pool: seq<string>,
                  maxObjects: int, draws: nat -> ImageDraw)
    ensures var r := Run(c, numImages, backgrounds, pool, maxObjects, draws);
      && (|backgrounds| == 0 && numImages >= 1 ==> r == [Crashed(IndexError)])
      && (|backgrounds| >= 1 ==> |r| == numImages)
  {
    var step := ImageStep(c, backgrounds, pool, maxObjects, draws);
    RunStepsLength(step, numImages, 0);
    forall k: nat | k < numImages
      ensures step(k).Crashed? <==> |backgrounds| == 0
      ensures step(k).Crashed? ==> step(k) == Crashed(IndexError)
    {
      ImageStepApply(c, backgrounds, pool, maxObjects, draws, k);
    }
  }

  /** No two iterations of a run write the same image file or the same label file. */
  lemma RunOutputsDistinct(c: Collaborators, numImages: nat, backgrounds: seq<string>, pool: seq<string>,
                           maxObjects: int, draws: nat -> ImageDraw, k: nat, l: nat)
    requires var r := Run(c, numImages, backgrounds, pool, maxObjects, draws);
      k < l < |r| && r[k].Written? && r[l].Written?
    ensures var r := Run(c, numImages, backgrounds, pool, maxObjects, draws);
      r[k].imageName != r[l].imageName && r[k].labelName != r[l].labelName
  {
    var r := Run(c, numImages, backgrounds, pool, maxObjects, draws);
    RunAt(c, numImages, backgrounds, pool, maxObjects, draws, k);
    RunAt(c, numImages, backgrounds, pool, maxObjects, draws, l);
    var nk :| nk in backgrounds && r[k].imageName == OutputImageName(k, nk) && r[k].labelName == OutputLabelName(k, nk);
    var nl :| nl in backgrounds && r[l].imageName == OutputImageName(l, nl) && r[l].labelName == OutputLabelName(l, nl);
    if r[k].imageName == r[l].imageName {
      OutputImageNameInjective(k, l, nk, nl);
    }
    if r[k].labelName == r[l].labelName {
      OutputLabelNameInjective(k, l, nk, nl);
    }
  }
}

=== FILE: text.dfy ===
/**
 The handful of Python `str` operations the pipeline relies on:
 `str.split()` with no separator, `str.strip()`, decimal rendering of
 non-negative integers, `float()` on a token, substring search and
 `os.path.splitext` on a bare file name.
 */
module Text {
  import opened Outcomes

  // ---------------------------------------------------------------------
  // Whitespace and `str.split()`
  // ---------------------------------------------------------------------

  /** `str.isspace()` for one character: the ASCII separators, the
      information separators 0x1C-0x1F and the Unicode space characters. */
  predicate IsSpace(c: char)
  {
    var n := c as int;
    n == 0x20 || (0x09 <= n <= 0x0D) || (0x1C <= n <= 0x1F) || n == 0x85 || n == 0xA0
    || n == 0x1680 || (0x2000 <= n <= 0x200A) || n == 0x2028 || n == 0x2029
    || n == 0x202F || n == 0x205F || n == 0x3000
  }

  /** A token of `str.split()`: non-empty, without whitespace. */
  predicate IsWord(w: string)
  {
    |w| > 0 && forall i :: 0 <= i < |w| ==> !IsSpace(w[i])
  }

  predicate AllSpace(s: string)
  {
    forall i :: 0 <= i < |s| ==> IsSpace(s[i])
  }

  /** Drops the leading whitespace of `s` (`str.lstrip()`). */
  function SkipSpace(s: string): (t: string)
    ensures |t| <= |s|
  {
    if |s| > 0 && IsSpace(s[0]) then SkipSpace(s[1..]) else s
  }

  /** `SkipSpace` removes a prefix of whitespace and stops at a non-space. */
  lemma {:induction false} SkipSpaceSpec(s: string)
    ensures var t := SkipSpace(s);
      && t == s[|s| - |t|..]
      && (t == [] || !IsSpace(t[0]))
      && AllSpace(s[..|s| - |t|])
    decreases |s|
  {
    if |s| > 0 && IsSpace(s[0]) {
      SkipSpaceSpec(s[1..]);
      var t := SkipSpace(s);
      var k := |s| - |t|;
      assert s[1..][..k - 1] == s[1..k];
      assert forall i :: 1 <= i < k ==> s[..k][i] == s[1..][..k - 1][i - 1];
    }
  }

  /** Length of the run of non-whitespace characters that starts `s`. */
  function WordLength(s: string): (n: nat)
    ensures n <= |s|
  {
    if |s| == 0 || IsSpace(s[0]) then 0 else 1 + WordLength(s[1..])
  }

  /** The run `WordLength` measures is free of whitespace and maximal. */
  lemma {:induction false} WordLengthSpec(s: string)
    ensures var n := WordLength(s);
      && (forall i :: 0 <= i < n ==> !IsSpace(s[i]))
      && (n < |s| ==> IsSpace(s[n]))
      && (|s| > 0 && !IsSpace(s[0]) ==> n > 0)
    decreases |s|
  {
    if |s| > 0 && !IsSpace(s[0]) {
      WordLengthSpec(s[1..]);
      assert forall i :: 1 <= i < |s| ==> s[i] == s[1..][i - 1];
    }
  }

  /** `s.split()`: the maximal runs of non-whitespace characters, in order. */
  function Split(s: string): seq<string>
    decreases |s|
  {
    if |s| == 0 then []
    else if IsSpace(s[0]) then Split(s[1..])
    else
      var n := WordLength(s);
      [s[..n]] + Split(s[n..])
  }

  /** Every part `str.split()` yields is a word. */
  lemma {:induction false} SplitWords(s: string)
    ensures forall i :: 0 <= i < |Split(s)| ==> IsWord(Split(s)[i])
    decreases |s|
  {
    if |s| > 0 && IsSpace(s[0]) {
      SplitWords(s[1..]);
    } else if |s| > 0 {
      var n := WordLength(s);
      WordLengthSpec(s);
      var w := s[..n];
      assert IsWord(w) by {
        assert forall i :: 0 <= i < n ==> w[i] == s[i];
      }
      SplitWords(s[n..]);
      var rest := Split(s[n..]);
      assert Split(s) == [w] + rest;
      forall i | 0 <= i < |Split(s)|
        ensures IsWord(Split(s)[i])
      {
        if i > 0 {
          assert Split(s)[i] == rest[i - 1];
        }
      }
    }
  }

  /** Drops the trailing whitespace of `s` (`str.rstrip()`). */
  function DropTrailingSpace(s: string): (t: string)
    ensures |t| <= |s|
  {
    if |s| > 0 && IsSpace(s[|s| - 1]) then DropTrailingSpace(s[..|s| - 1]) else s
  }

  /** `DropTrailingSpace` removes a suffix of whitespace and stops at a non-space. */
  lemma {:induction false} DropTrailingSpaceSpec(s: string)
    ensures var t := DropTrailingSpace(s);
      && t == s[..|t|]
      && (t == [] || !IsSpace(t[|t| - 1]))
      && AllSpace(s[|t|..])
    decreases |s|
  {
    if |s| > 0 && IsSpace(s[|s| - 1]) {
      var s' := s[..|s| - 1];
      DropTrailingSpaceSpec(s');
      var t := DropTrailingSpace(s');
      assert s'[..|t|] == s[..|t|];
      forall i | 0 <= i < |s| - |t|
        ensures IsSpace(s[|t|..][i])
      {
        if i < |s| - 1 - |t| {
          assert s[|t|..][i] == s'[|t|..][i];
        }
      }
    }
  }

  /** `s.strip()` */
  function Strip(s: string): string
  {
    DropTrailingSpace(SkipSpace(s))
  }

  /** The words joined by single spaces: the inverse of `Split` on words. */
  function JoinSpaced(words: seq<string>): string
  {
    if |words| == 0 then ""
    else if |words| == 1 then words[0]
    else words[0] + " " + JoinSpaced(words[1..])
  }

  lemma {:induction false} WordLengthOfWord(w: string, rest: string)
    requires IsWord(w)
    requires rest == [] || IsSpace(rest[0])
    ensures WordLength(w + rest) == |w|
    decreases |w|
  {
    if |w| > 1 {
      assert (w + rest)[1..] == w[1..] + rest;
      WordLengthOfWord(w[1..], rest);
    } else {
      assert (w + rest)[1..] == rest;
    }
  }

  /** One step of `Split` over a word followed by whitespace or nothing. */
  lemma SplitWordThen(w: string, rest: string)
    requires IsWord(w)
    requires rest == [] || IsSpace(rest[0])
    ensures Split(w + rest) == [w] + Split(rest)
  {
    WordLengthOfWord(w, rest);
    assert (w + rest)[..|w|] == w;
    assert (w + rest)[|w|..] == rest;
  }

  /** Splitting words that were joined by spaces gives the words back. */
  lemma {:induction false} SplitJoinSpaced(words: seq<string>)
    requires forall i :: 0 <= i < |words| ==> IsWord(words[i])
    ensures Split(JoinSpaced(words)) == words
    decreases |words|
  {
    if |words| == 1 {
      SplitWordThen(words[0], []);
      assert words[0] + [] == words[0];
    } else if |words| > 1 {
      var tail := JoinSpaced(words[1..]);
      assert JoinSpaced(words) == words[0] + (" " + tail);
      SplitWordThen(words[0], " " + tail);
      assert (" " + tail)[1..] == tail;
      SplitJoinSpaced(words[1..]);
      assert words == [words[0]] + words[1..];
    }
  }

  lemma {:induction false} SplitOfAllSpace(sp: string)
    requires AllSpace(sp)
    ensures Split(sp) == []
    decreases |sp|
  {
    if |sp| > 0 {
      SplitOfAllSpace(sp[1..]);
    }
  }

  lemma {:induction false} WordLengthAppend(s: string, sp: string)
    requires AllSpace(sp)
    ensures WordLength(s + sp) == WordLength(s)
    decreases |s|
  {
    if |s| == 0 {
      assert s + sp == sp;
    } else if !IsSpace(s[0]) {
      assert (s + sp)[1..] == s[1..] + sp;
      WordLengthAppend(s[1..], sp);
    }
  }

  /** Trailing whitespace produces no extra token. */
  lemma {:induction false} SplitTrailingSpace(s: string, sp: string)
    requires AllSpace(sp)
    ensures Split(s + sp) == Split(s)
    decreases |s|
  {
    if |s| == 0 {
      assert s + sp == sp;
      SplitOfAllSpace(sp);
    } else if IsSpace(s[0]) {
      assert (s + sp)[1..] == s[1..] + sp;
      SplitTrailingSpace(s[1..], sp);
    } else {
      var n := WordLength(s);
      WordLengthAppend(s, sp);
      assert (s + sp)[..n] == s[..n];
      assert (s + sp)[n..] == s[n..] + sp;
      SplitTrailingSpace(s[n..], sp);
    }
  }

  /** Leading whitespace produces no extra token. */
  lemma {:induction false} SplitSkipSpace(s: string)
    ensures Split(SkipSpace(s)) == Split(s)
    decreases |s|
  {
    if |s| > 0 && IsSpace(s[0]) {
      SplitSkipSpace(s[1..]);
    }
  }

  /** `line.strip().split()` equals `line.split()`: the strip is redundant. */
  lemma {:induction false} SplitOfStrip(s: string)
    ensures Split(Strip(s)) == Split(s)
  {
    var t := SkipSpace(s);
    var u := DropTrailingSpace(t);
    DropTrailingSpaceSpec(t);
    assert t == u + t[|u|..];
    SplitTrailingSpace(u, t[|u|..]);
    SplitSkipSpace(s);
  }

  // ---------------------------------------------------------------------
  // Decimal digits
  // ---------------------------------------------------------------------

  predicate IsDigit(c: char) { '0' <= c <= '9' }

  predicate AllDigits(s: string)
  {
    forall i :: 0 <= i < |s| ==> IsDigit(s[i])
  }

  function DigitChar(d: nat): (c: char)
    requires d < 10
    ensures IsDigit(c)
  {
    "0123456789"[d]
  }

  function DigitOf(c: char): (d: nat)
    requires IsDigit(c)
    ensures d < 10 && DigitChar(d) == c
  {
    (c as int - '0' as int) as nat
  }

  /** The number a string of decimal digits denotes (leading zeros allowed). */
  function DigitsValue(s: string): nat
    requires AllDigits(s)
  {
    if |s| == 0 then 0 else 10 * DigitsValue(s[..|s| - 1]) + DigitOf(s[|s| - 1])
  }

  /** `str(n)` for a non-negative integer. */
  function NatToString(n: nat): (s: string)
    ensures |s| >= 1 && AllDigits(s)
  {
    if n < 10 then [DigitChar(n)] else NatToString(n / 10) + [DigitChar(n % 10)]
  }

  /** Reading back the digits of `str(n)` gives `n`. */
  lemma {:induction false} NatToStringValue(n: nat)
    ensures DigitsValue(NatToString(n)) == n
  {
    var s := NatToString(n);
    if n >= 10 {
      assert s[..|s| - 1] == NatToString(n / 10);
      NatToStringValue(n / 10);
    }
  }

  /** `str` is injective on non-negative integers. */
  lemma NatToStringInjective(i: nat, j: nat)
    requires NatToString(i) == NatToString(j)
    ensures i == j
  {
    NatToStringValue(i);
    NatToStringValue(j);
  }

  function Pow10(n: nat): (p: nat)
    ensures p >= 1
  {
    if n == 0 then 1 else 10 * Pow10(n - 1)
  }

  // ---------------------------------------------------------------------
  // `float()` on a token
  // ---------------------------------------------------------------------

  /** Index of the first `c` in `s`, or `|s|` when there is none. */
  function IndexOf(s: string, c: char): (i: nat)
    ensures i <= |s|
    ensures i < |s| ==> s[i] == c
    ensures forall j :: 0 <= j < i ==> s[j] != c
  {
    if |s| == 0 || s[0] == c then 0 else 1 + IndexOf(s[1..], c)
  }

  /** Index of the first exponent marker `e`/`E`, or `|s|`. */
  function ExponentIndex(s: string): (i: nat)
    ensures i <= |s|
    ensures i < |s| ==> s[i] == 'e' || s[i] == 'E'
    ensures forall j :: 0 <= j < i ==> s[j] != 'e' && s[j] != 'E'
  {
    if |s| == 0 || s[0] == 'e' || s[0] == 'E' then 0 else 1 + ExponentIndex(s[1..])
  }

  /** The characters a decimal literal is written with. */
  predicate IsNumeral(c: char)
  {
    IsDigit(c) || c == '.' || c == '+' || c == '-' || c == 'e' || c == 'E'
  }

  /** `digits`, `digits.`, `.digits` or `digits.digits`: at least one digit in all. */
  function ParseMantissa(t: string): (r: Option<real>)
    ensures r.Some? ==> forall i :: 0 <= i < |t| ==> IsDigit(t[i]) || t[i] == '.'
  {
    var d := IndexOf(t, '.');
    var whole := t[..d];
    var frac := if d < |t| then t[d + 1..] else "";
    if AllDigits(whole) && AllDigits(frac) && |whole| + |frac| > 0 then
      Some(DigitsValue(whole) as real + FractionValue(frac))
    else None
  }

  /** The value of `0.` followed by the digits `s`. */
  function FractionValue(s: string): (r: real)
    requires AllDigits(s)
    ensures 0.0 <= r < 1.0
  {
    if |s| == 0 then 0.0 else (DigitOf(s[0]) as real + FractionValue(s[1..])) / 10.0
  }

  /** `[+|-]digits` */
  function ParseExponent(t: string): (r: Option<int>)
    ensures r.Some? ==> |t| > 0 && forall i :: 0 <= i < |t| ==> IsNumeral(t[i])
  {
    if |t| > 0 && (t[0] == '+' || t[0] == '-') then
      if |t| > 1 && AllDigits(t[1..]) then
        Some(if t[0] == '-' then -(DigitsValue(t[1..]) as int) else DigitsValue(t[1..]))
      else None
    else if |t| > 0 && AllDigits(t) then Some(DigitsValue(t))
    else None
  }

  /** `m · 10^e`: a multiplication for `e >= 0`, a division by `10^-e` otherwise. */
  function ScaleByPow10(m: real, e: int): real
  {
    if e >= 0 then m * Pow10(e) as real else m / Pow10(-e) as real
  }

  function ParseUnsigned(t: string): (r: Option<real>)
    ensures r.Some? ==> |t| > 0 && forall i :: 0 <= i < |t| ==> IsNumeral(t[i])
  {
    var e := ExponentIndex(t);
    match ParseMantissa(t[..e])
    case None => None
    case Some(m) =>
      if e == |t| then
        assert forall i :: 0 <= i < |t| ==> t[i] == t[..e][i];
        Some(m)
      else
        match ParseExponent(t[e + 1..])
        case None => None
        case Some(x) =>
          assert forall i :: 0 <= i < |t| ==> IsNumeral(t[i]) by {
            forall i | 0 <= i < |t|
              ensures IsNumeral(t[i])
            {
              if i < e {
                assert t[i] == t[..e][i];
              } else if i > e {
                assert t[i] == t[e + 1..][i - e - 1];
              }
            }
          }
          Some(ScaleByPow10(m, x))
  }

  /** `float(s)` for decimal literals: an optional sign, a mantissa of digits with
      at most one dot and at least one digit, and an optional `e`/`E` exponent;
      `None` stands for the `ValueError` Python raises. */
  function ParseFloat(s: string): (r: Option<real>)
    ensures r.Some? ==> |s| > 0 && forall i :: 0 <= i < |s| ==> IsNumeral(s[i])
  {
    if |s| > 0 && (s[0] == '+' || s[0] == '-') then
      match ParseUnsigned(s[1..])
      case None => None
      case Some(v) => Some(if s[0] == '-' then -v else v)
    else ParseUnsigned(s)
  }

  lemma DigitsHaveNoMarkers(s: string)
    requires AllDigits(s)
    ensures IndexOf(s, '.') == |s| && ExponentIndex(s) == |s|
  {
  }

  /** A non-empty run of digits reads as the integer it denotes. */
  lemma ParseDigits(s: string)
    requires |s| > 0 && AllDigits(s)
    ensures ParseFloat(s) == Some(DigitsValue(s) as real)
  {
    assert IsDigit(s[0]);
    UnsignedOfDigits(s);
  }

  lemma MantissaOfDigits(s: string)
    requires |s| > 0 && AllDigits(s)
    ensures ParseMantissa(s) == Some(DigitsValue(s) as real)
  {
    DigitsHaveNoMarkers(s);
    assert s[..IndexOf(s, '.')] == s;
  }

  lemma UnsignedOfDigits(s: string)
    requires |s| > 0 && AllDigits(s)
    ensures ParseUnsigned(s) == Some(DigitsValue(s) as real)
  {
    DigitsHaveNoMarkers(s);
    assert s[..|s|] == s;
    MantissaOfDigits(s);
  }

  /** `float(str(n)) == n` */
  lemma ParseFloatOfNat(n: nat)
    ensures ParseFloat(NatToString(n)) == Some(n as real)
  {
    ParseDigits(NatToString(n));
    NatToStringValue(n);
  }

  /** A leading minus sign negates the value. */
  lemma ParseFloatNegative(s: string)
    requires |s| > 0 && s[0] != '+' && s[0] != '-'
    ensures ParseFloat("-" + s) == (match ParseFloat(s) case None => None case Some(v) => Some(-v))
  {
    assert ("-" + s)[1..] == s;
  }

  // ---------------------------------------------------------------------
  // The decimal literals `float()` accepts
  // ---------------------------------------------------------------------

  /** An exponent part: `e` or `E`, an optional sign, then digits. */
  datatype Exponent = Exponent(marker: char, sign: string, digits: string)

  /** A decimal literal by its parts: a sign, the whole digits, an optional dot,
      the fraction digits and an optional exponent. */
  datatype Literal = Literal(sign: string, whole: string, dot: bool, frac: string, exponent: Option<Exponent>)

  predicate IsSign(t: string)
  {
    t == "" || t == "+" || t == "-"
  }

  predicate WellFormedExponent(x: Exponent)
  {
    (x.marker == 'e' || x.marker == 'E') && IsSign(x.sign) && |x.digits| > 0 && AllDigits(x.digits)
  }

  /** At least one digit in the mantissa, a fraction only after a dot. */
  predicate WellFormedLiteral(l: Literal)
  {
    && IsSign(l.sign) && AllDigits(l.whole) && AllDigits(l.frac)
    && (l.dot || l.frac == "")
    && |l.whole| + |l.frac| > 0
    && (l.exponent.Some? ==> WellFormedExponent(l.exponent.value))
  }

  function MantissaText(l: Literal): string
  {
    l.whole + (if l.dot then "." else "") + l.frac
  }

  function ExponentText(x: Exponent): string
  {
    [x.marker] + x.sign + x.digits
  }

  function ExponentSuffix(l: Literal): string
  {
    if l.exponent.Some? then ExponentText(l.exponent.value) else ""
  }

  /** The literal without its sign. */
  function UnsignedText(l: Literal): string
  {
    MantissaText(l) + ExponentSuffix(l)
  }

  /** The token that writes the literal out. */
  function Spell(l: Literal): string
  {
    l.sign + UnsignedText(l)
  }

  function ExponentValue(x: Exponent): int
    requires WellFormedExponent(x)
  {
    if x.sign == "-" then -(DigitsValue(x.digits) as int) else DigitsValue(x.digits)
  }

  /** `whole + frac / 10^|frac|` */
  function MantissaValue(l: Literal): real
    requires WellFormedLiteral(l)
  {
    DigitsValue(l.whole) as real + DigitsValue(l.frac) as real / Pow10(|l.frac|) as real
  }

  /** The mantissa scaled by the exponent, if there is one. */
  function UnsignedValue(l: Literal): real
    requires WellFormedLiteral(l)
  {
    if l.exponent.None? then MantissaValue(l) else ScaleByPow10(MantissaValue(l), ExponentValue(l.exponent.value))
  }

  /** The number a literal denotes: `±(whole + frac / 10^|frac|) · 10^exponent`. */
  function LiteralValue(l: Literal): real
    requires WellFormedLiteral(l)
  {
    if l.sign == "-" then -UnsignedValue(l) else UnsignedValue(l)
  }

  /** Reading digits from the front: a leading digit adds its value times `10^|s|`. */
  lemma {:induction false} DigitsValuePrepend(c: char, s: string)
    requires IsDigit(c) && AllDigits(s)
    ensures AllDigits([c] + s)
    ensures DigitsValue([c] + s) == DigitOf(c) * Pow10(|s|) + DigitsValue(s)
    decreases |s|
  {
    var t := [c] + s;
    assert forall i :: 0 <= i < |t| ==> IsDigit(t[i]) by {
      forall i | 0 <= i < |t|
        ensures IsDigit(t[i])
      {
        if i > 0 {
          assert t[i] == s[i - 1];
        }
      }
    }
    if |s| > 0 {
      var init := s[..|s| - 1];
      assert t[..|t| - 1] == [c] + init;
      assert AllDigits(init) by {
        forall i | 0 <= i < |init|
          ensures IsDigit(init[i])
        {
          assert init[i] == s[i];
        }
      }
      DigitsValuePrepend(c, init);
      assert t[|t| - 1] == s[|s| - 1];
      PrependStep(DigitOf(c), Pow10(|init|), DigitsValue(init), DigitOf(s[|s| - 1]),
                  DigitsValue([c] + init), DigitsValue(t));
    } else {
      assert t[..0] == [];
    }
  }

  /** The arithmetic of one step of `DigitsValuePrepend`. */
  lemma PrependStep(d: int, p: int, v: int, last: int, front: int, all: int)
    requires front == d * p + v && all == 10 * front + last
    ensures all == d * (10 * p) + (10 * v + last)
  {
    assert 10 * (d * p) == d * (10 * p);
  }

  /** One step of `FractionValue`, in terms of the integers it is built from. */
  lemma FractionStep(d: nat, x: nat, q: nat, tail: real, whole: real)
    requires q > 0 && tail == x as real / q as real && whole == (d as real + tail) / 10.0
    ensures whole == (d * q + x) as real / (10 * q) as real
  {
    assert (d * q + x) as real == d as real * q as real + x as real;
    assert (10 * q) as real == 10.0 * q as real;
    assert d as real + tail == (d as real * q as real + x as real) / q as real;
  }

  /** `0.` followed by the digits `s` is `s` read as an integer over `10^|s|`. */
  lemma {:induction false} FractionValueQuotient(s: string)
    requires AllDigits(s)
    ensures FractionValue(s) == DigitsValue(s) as real / Pow10(|s|) as real
    decreases |s|
  {
    if |s| > 0 {
      var rest := s[1..];
      var d, x, q := DigitOf(s[0]), DigitsValue(rest), Pow10(|rest|);
      FractionValueQuotient(rest);
      assert s == [s[0]] + rest;
      DigitsValuePrepend(s[0], rest);
      FractionStep(d, x, q, FractionValue(rest), FractionValue(s));
    } else {
      assert DigitsValue(s) == 0;
    }
  }

  lemma {:induction false} IndexOfAppend(p: string, q: string, c: char)
    requires forall i :: 0 <= i < |p| ==> p[i] != c
    ensures IndexOf(p + q, c) == |p| + IndexOf(q, c)
    decreases |p|
  {
    if |p| > 0 {
      assert (p + q)[1..] == p[1..] + q;
      IndexOfAppend(p[1..], q, c);
    } else {
      assert p + q == q;
    }
  }

  lemma {:induction false} ExponentIndexAppend(p: string, q: string)
    requires forall i :: 0 <= i < |p| ==> p[i] != 'e' && p[i] != 'E'
    ensures ExponentIndex(p + q) == |p| + ExponentIndex(q)
    decreases |p|
  {
    if |p| > 0 {
      assert (p + q)[1..] == p[1..] + q;
      ExponentIndexAppend(p[1..], q);
    } else {
      assert p + q == q;
    }
  }

  /** A mantissa whose first dot sits right after `whole` reads as `whole.frac`. */
  lemma ParseMantissaAtDot(t: string, whole: string, frac: string)
    requires IndexOf(t, '.') == |whole| < |t|
    requires t[..|whole|] == whole && t[|whole| + 1..] == frac
    requires AllDigits(whole) && AllDigits(frac) && |whole| + |frac| > 0
    ensures ParseMantissa(t).Some?
    ensures ParseMantissa(t).value == DigitsValue(whole) as real + FractionValue(frac)
  {
    var d := IndexOf(t, '.');
    assert t[..d] == whole;
    assert (if d < |t| then t[d + 1..] else "") == frac;
  }

  /** In `whole.frac` with a digit string `whole`, the first dot follows `whole`. */
  lemma DotAfterDigits(whole: string, frac: string)
    requires AllDigits(whole)
    ensures IndexOf(whole + "." + frac, '.') == |whole| < |whole + "." + frac|
    ensures (whole + "." + frac)[..|whole|] == whole
    ensures (whole + "." + frac)[|whole| + 1..] == frac
  {
    assert whole + "." + frac == whole + ("." + frac);
    IndexOfAppend(whole, "." + frac, '.');
  }

  /** A mantissa with a dot reads as `whole + frac / 10^|frac|`. */
  lemma MantissaOfDotted(l: Literal)
    requires WellFormedLiteral(l) && l.dot
    ensures ParseMantissa(MantissaText(l)).Some?
    ensures ParseMantissa(MantissaText(l)).value == MantissaValue(l)
  {
    assert MantissaText(l) == l.whole + "." + l.frac;
    DotAfterDigits(l.whole, l.frac);
    ParseMantissaAtDot(l.whole + "." + l.frac, l.whole, l.frac);
    FractionValueQuotient(l.frac);
  }

  /** A mantissa without a dot reads as its digits. */
  lemma MantissaOfWhole(l: Literal)
    requires WellFormedLiteral(l) && !l.dot
    ensures ParseMantissa(MantissaText(l)).Some?
    ensures ParseMantissa(MantissaText(l)).value == MantissaValue(l)
  {
    assert MantissaText(l) == l.whole;
    MantissaOfDigits(l.whole);
    assert DigitsValue(l.frac) == 0;
  }

  /** A well-formed mantissa reads as `whole + frac / 10^|frac|`. */
  lemma MantissaOfLiteral(l: Literal)
    requires WellFormedLiteral(l)
    ensures ParseMantissa(MantissaText(l)).Some?
    ensures ParseMantissa(MantissaText(l)).value == MantissaValue(l)
  {
    if l.dot {
      MantissaOfDotted(l);
    } else {
      MantissaOfWhole(l);
    }
  }

  /** A well-formed exponent part, after its marker, reads as its signed digits. */
  lemma ExponentOfLiteral(x: Exponent)
    requires WellFormedExponent(x)
    ensures ParseExponent(ExponentText(x)[1..]).Some?
    ensures ParseExponent(ExponentText(x)[1..]).value == ExponentValue(x)
  {
    var t := ExponentText(x)[1..];
    assert t == x.sign + x.digits;
    if x.sign == "" {
      assert t == x.digits;
    } else {
      assert t[1..] == x.digits;
    }
  }

  /** A mantissa with nothing after it reads as the mantissa. */
  lemma ParseUnsignedPlain(m: string, e: string)
    requires ParseMantissa(m).Some? && e == ""
    ensures ParseUnsigned(m + e).Some?
    ensures ParseUnsigned(m + e).value == ParseMantissa(m).value
  {
    assert m + e == m;
    assert forall i :: 0 <= i < |m| ==> IsDigit(m[i]) || m[i] == '.';
    ExponentIndexAppend(m, "");
    assert m[..|m|] == m;
  }

  /** A mantissa followed by an exponent marker and an exponent reads as the
      mantissa scaled by ten to that exponent. */
  lemma ParseUnsignedScaled(m: string, e: string)
    requires ParseMantissa(m).Some? && |e| > 0 && (e[0] == 'e' || e[0] == 'E') && ParseExponent(e[1..]).Some?
    ensures ParseUnsigned(m + e).Some?
    ensures ParseUnsigned(m + e).value == ScaleByPow10(ParseMantissa(m).value, ParseExponent(e[1..]).value)
  {
    var u := m + e;
    assert forall i :: 0 <= i < |m| ==> IsDigit(m[i]) || m[i] == '.';
    ExponentIndexAppend(m, e);
    assert u[..|m|] == m;
    assert u[|m| + 1..] == e[1..];
  }

  /** The literal without its sign reads as its unsigned value and starts with a
      digit or a dot. */
  lemma UnsignedOfLiteral(l: Literal)
    requires WellFormedLiteral(l)
    ensures ParseUnsigned(UnsignedText(l)).Some?
    ensures ParseUnsigned(UnsignedText(l)).value == UnsignedValue(l)
    ensures IsDigit(UnsignedText(l)[0]) || UnsignedText(l)[0] == '.'
  {
    var m := MantissaText(l);
    MantissaOfLiteral(l);
    assert IsDigit(m[0]) || m[0] == '.';
    assert UnsignedText(l)[0] == m[0];
    if l.exponent.Some? {
      ExponentOfLiteral(l.exponent.value);
      ParseUnsignedScaled(m, ExponentSuffix(l));
    } else {
      ParseUnsignedPlain(m, ExponentSuffix(l));
    }
  }

  /** A sign in front of a token that starts with a digit or a dot negates the
      value for `-` and keeps it for `+`. */
  lemma SignedParse(sign: string, u: string)
    requires IsSign(sign) && |u| > 0 && (IsDigit(u[0]) || u[0] == '.')
    ensures ParseFloat(sign + u).Some? == ParseUnsigned(u).Some?
    ensures ParseUnsigned(u).Some? ==>
      ParseFloat(sign + u).value == if sign == "-" then -ParseUnsigned(u).value else ParseUnsigned(u).value
  {
    if sign == "" {
      assert sign + u == u;
    } else {
      assert (sign + u)[1..] == u;
    }
  }

  /** Every literal of the grammar is accepted, with the value it denotes. */
  lemma ParseFloatLiteral(l: Literal)
    requires WellFormedLiteral(l)
    ensures ParseFloat(Spell(l)).Some?
    ensures ParseFloat(Spell(l)).value == LiteralValue(l)
  {
    UnsignedOfLiteral(l);
    SignedParse(l.sign, UnsignedText(l));
  }

  /** The parts of a mantissa `float()` accepts. */
  lemma MantissaParts(mt: string) returns (whole: string, dot: bool, frac: string)
    requires ParseMantissa(mt).Some?
    ensures AllDigits(whole) && AllDigits(frac) && (dot || frac == "") && |whole| + |frac| > 0
    ensures whole + (if dot then "." else "") + frac == mt
  {
    var d := IndexOf(mt, '.');
    whole := mt[..d];
    dot := d < |mt|;
    frac := if dot then mt[d + 1..] else "";
    if dot {
      assert mt == whole + "." + frac;
    } else {
      assert mt == whole;
    }
  }

  /** The parts of an exponent `float()` accepts after its marker. */
  lemma ExponentParts(marker: char, t: string) returns (x: Exponent)
    requires (marker == 'e' || marker == 'E') && ParseExponent(t).Some?
    ensures WellFormedExponent(x) && x.marker == marker && x.sign + x.digits == t
  {
    if t[0] == '+' || t[0] == '-' {
      x := Exponent(marker, t[..1], t[1..]);
      assert t == t[..1] + t[1..];
    } else {
      x := Exponent(marker, "", t);
    }
  }

  /** A token `float()` accepts without a sign is a mantissa, optionally followed
      by an exponent marker and an exponent. */
  lemma UnsignedShape(u: string)
    requires ParseUnsigned(u).Some?
    ensures ParseMantissa(u[..ExponentIndex(u)]).Some?
    ensures ExponentIndex(u) < |u| ==> ParseExponent(u[ExponentIndex(u) + 1..]).Some?
  {
  }

  /** The parts of a token `float()` accepts without a sign or an exponent. */
  lemma PlainParts(u: string) returns (l: Literal)
    requires ExponentIndex(u) == |u| && ParseMantissa(u).Some?
    ensures WellFormedLiteral(l) && l.sign == "" && UnsignedText(l) == u
  {
    var whole, dot, frac := MantissaParts(u);
    l := Literal("", whole, dot, frac, None);
    assert MantissaText(l) == u;
  }

  /** The parts of a mantissa `mt` followed by the exponent marker and the
      exponent `t`. */
  lemma ScaledParts(mt: string, marker: char, t: string) returns (l: Literal)
    requires (marker == 'e' || marker == 'E') && ParseMantissa(mt).Some? && ParseExponent(t).Some?
    ensures WellFormedLiteral(l) && l.sign == "" && UnsignedText(l) == mt + [marker] + t
  {
    var whole, dot, frac := MantissaParts(mt);
    var x := ExponentParts(marker, t);
    l := Literal("", whole, dot, frac, Some(x));
    assert MantissaText(l) == mt;
    assert ExponentText(x) == [marker] + t;
  }

  lemma SplitAround(u: string, e: nat)
    requires e < |u|
    ensures u == u[..e] + [u[e]] + u[e + 1..]
  {
    assert u == u[..e] + u[e..];
    assert u[e..] == [u[e]] + u[e + 1..];
  }

  /** The parts of a token `float()` accepts without a sign. */
  lemma UnsignedParts(u: string) returns (l: Literal)
    requires ParseUnsigned(u).Some?
    ensures WellFormedLiteral(l) && l.sign == "" && UnsignedText(l) == u
  {
    UnsignedShape(u);
    var e := ExponentIndex(u);
    if e < |u| {
      l := ScaledParts(u[..e], u[e], u[e + 1..]);
      SplitAround(u, e);
    } else {
      assert u[..e] == u;
      l := PlainParts(u);
    }
  }

  /** A token `float()` accepts is a sign and an accepted unsigned token, or an
      accepted unsigned token alone. */
  lemma SignedShape(s: string)
    requires ParseFloat(s).Some?
    ensures s[0] == '+' || s[0] == '-' ==> ParseUnsigned(s[1..]).Some?
    ensures s[0] != '+' && s[0] != '-' ==> ParseUnsigned(s).Some?
  {
  }

  /** The literal a token `float()` accepts spells. */
  lemma FloatParts(s: string) returns (l: Literal)
    requires ParseFloat(s).Some?
    ensures WellFormedLiteral(l) && Spell(l) == s
  {
    SignedShape(s);
    if s[0] == '+' || s[0] == '-' {
      var u := UnsignedParts(s[1..]);
      l := u.(sign := s[..1]);
      assert s == s[..1] + s[1..];
    } else {
      l := UnsignedParts(s);
    }
  }

  /** Every token `float()` accepts spells a literal of the grammar, and reads as
      that literal's value. */
  lemma ParseFloatOnlyLiterals(s: string)
    requires ParseFloat(s).Some?
    ensures exists l :: WellFormedLiteral(l) && Spell(l) == s && LiteralValue(l) == ParseFloat(s).value
  {
    var l := FloatParts(s);
    ParseFloatLiteral(l);
  }

  /** `a.b` as a literal: its spelling and its value. */
  lemma DecimalLiteral(a: string, b: string)
    requires AllDigits(a) && AllDigits(b) && |a| + |b| > 0
    ensures WellFormedLiteral(Literal("", a, true, b, None))
    ensures Spell(Literal("", a, true, b, None)) == a + "." + b
    ensures LiteralValue(Literal("", a, true, b, None)) ==
      DigitsValue(a) as real + DigitsValue(b) as real / Pow10(|b|) as real
  {
    assert Spell(Literal("", a, true, b, None)) == a + "." + b;
  }

  lemma ParseFloatOfDecimalLiteral(a: string, b: string)
    requires AllDigits(a) && AllDigits(b) && |a| + |b| > 0
    ensures ParseFloat(a + "." + b).Some?
    ensures ParseFloat(a + "." + b).value == LiteralValue(Literal("", a, true, b, None))
  {
    DecimalLiteral(a, b);
    ParseFloatLiteral(Literal("", a, true, b, None));
  }

  /** `float("a.b")` for digit strings `a` and `b`, not both empty, is
      `a + b / 10^|b|`. */
  lemma ParseFloatDecimal(a: string, b: string)
    requires AllDigits(a) && AllDigits(b) && |a| + |b| > 0
    ensures ParseFloat(a + "." + b).Some?
    ensures ParseFloat(a + "." + b).value == DigitsValue(a) as real + DigitsValue(b) as real / Pow10(|b|) as real
  {
    DecimalLiteral(a, b);
    ParseFloatOfDecimalLiteral(a, b);
  }

  lemma ParseFloatOfScaledLiteral(l: Literal, x: Exponent)
    requires WellFormedLiteral(l) && l.exponent.None? && WellFormedExponent(x)
    ensures WellFormedLiteral(l.(exponent := Some(x)))
    ensures ParseFloat(Spell(l) + ExponentText(x)).Some?
    ensures ParseFloat(Spell(l) + ExponentText(x)).value == LiteralValue(l.(exponent := Some(x)))
  {
    var lx := l.(exponent := Some(x));
    assert Spell(lx) == Spell(l) + ExponentText(x);
    ParseFloatLiteral(lx);
  }

  lemma NegScaleBy(m: real, e: int)
    ensures ScaleByPow10(-m, e) == -ScaleByPow10(m, e)
  {
  }

  /** An exponent part scales the value of the literal before it by ten to the
      power it denotes. */
  lemma ScaledValue(l: Literal, x: Exponent)
    requires WellFormedLiteral(l) && l.exponent.None? && WellFormedExponent(x)
    ensures WellFormedLiteral(l.(exponent := Some(x)))
    ensures LiteralValue(l.(exponent := Some(x))) == ScaleByPow10(LiteralValue(l), ExponentValue(x))
  {
    var m := MantissaValue(l);
    var e := ExponentValue(x);
    var lx := l.(exponent := Some(x));
    assert MantissaValue(lx) == m;
    assert UnsignedValue(lx) == ScaleByPow10(m, e);
    if l.sign == "-" {
      NegScaleBy(m, e);
    }
  }

  /** Appending an exponent part `e±k` to a literal scales what `float()` reads
      by `10^±k`: it multiplies by `10^k` for `e k` or `e+k` and divides by
      `10^k` for `e-k`. */
  lemma ParseFloatScaled(l: Literal, x: Exponent)
    requires WellFormedLiteral(l) && l.exponent.None? && WellFormedExponent(x)
    ensures ParseFloat(Spell(l)).Some? && ParseFloat(Spell(l) + ExponentText(x)).Some?
    ensures ParseFloat(Spell(l) + ExponentText(x)).value ==
      ScaleByPow10(ParseFloat(Spell(l)).value, ExponentValue(x))
  {
    ParseFloatLiteral(l);
    ParseFloatOfScaledLiteral(l, x);
    ScaledValue(l, x);
  }

  // ---------------------------------------------------------------------
  // Substrings
  // ---------------------------------------------------------------------

  predicate OccursAt(s: string, pat: string, k: int)
  {
    0 <= k && k + |pat| <= |s| && s[k..k + |pat|] == pat
  }

  /** The last position below `bound` where `pat` occurs in `s`. */
  function LastOccurrenceBelow(s: string, pat: string, bound: nat): (r: Option<nat>)
    ensures r.Some? ==> r.value < bound && OccursAt(s, pat, r.value)
    ensures r.Some? ==> forall k :: r.value < k < bound ==> !OccursAt(s, pat, k)
    ensures r.None? ==> forall k :: 0 <= k < bound ==> !OccursAt(s, pat, k)
  {
    if bound == 0 then None
    else if OccursAt(s, pat, bound - 1) then Some(bound - 1)
    else LastOccurrenceBelow(s, pat, bound - 1)
  }

  /** `s.rfind(pat)` as an option: the last position where `pat` occurs. */
  function LastOccurrence(s: string, pat: string): (r: Option<nat>)
    ensures r.Some? ==> OccursAt(s, pat, r.value)
    ensures r.Some? ==> forall k :: r.value < k ==> !OccursAt(s, pat, k)
    ensures r.None? ==> forall k :: !OccursAt(s, pat, k)
  {
    LastOccurrenceBelow(s, pat, |s| + 1)
  }

  /** `pat` occurs nowhere in `s`. */
  ghost predicate Excludes(s: string, pat: string)
  {
    forall k :: !OccursAt(s, pat, k)
  }

  lemma CharAfterPrefix(a: string, c: char, x: string)
    ensures (a + [c] + x)[|a|] == c
  {
  }

  /** When a string is split at the first occurrence of a character that
      neither prefix contains, the prefixes and the remainders coincide. */
  lemma SplitAtFirst(a: string, b: string, c: char, x: string, y: string)
    requires c !in a && c !in b
    requires a + [c] + x == b + [c] + y
    ensures a == b && x == y
  {
    var s := a + [c] + x;
    assert |a| == |b| by {
      if |a| < |b| {
        CharAfterPrefix(a, c, x);
        assert false;
      } else if |b| < |a| {
        CharAfterPrefix(b, c, y);
        assert false;
      }
    }
    assert a == s[..|a|] == b;
    assert x == s[|a| + 1..] == y;
  }

  // ---------------------------------------------------------------------
  // `os.path.splitext` on a bare file name
  // ---------------------------------------------------------------------

  predicate AllDots(s: string)
  {
    forall i :: 0 <= i < |s| ==> s[i] == '.'
  }

  /** The position of the extension's dot: the last `.` that has a
      character other than `.` before it. */
  function ExtensionDot(name: string): (r: Option<nat>)
    ensures r.Some? ==> r.value < |name| && name[r.value] == '.' && !AllDots(name[..r.value])
    ensures r.Some? ==> forall k :: r.value < k < |name| ==> name[k] != '.'
  {
    match LastOccurrence(name, ".")
    case None => None
    case Some(d) =>
      assert name[d..d + 1] == "." && name[d] == '.';
      if AllDots(name[..d]) then None
      else
        assert forall k :: d < k < |name| ==> name[k] != '.' by {
          forall k | d < k < |name|
            ensures name[k] != '.'
          {
            if name[k] == '.' {
              assert name[k..k + 1] == ".";
              assert OccursAt(name, ".", k);
            }
          }
        }
        Some(d)
  }

  /** `os.path.splitext(name)[0]` for a name without a directory part. */
  function Stem(name: string): (stem: string)
    ensures stem <= name
  {
    match ExtensionDot(name)
    case None => name
    case Some(d) => name[..d]
  }

  /** A dot-free extension after a stem that is not all dots is split off exactly. */
  lemma StemOfExtended(stem: string, ext: string)
    requires !AllDots(stem)
    requires '.' !in ext
    ensures Stem(stem + "." + ext) == stem
  {
    var name := stem + "." + ext;
    var d := |stem|;
    assert OccursAt(name, ".", d) by {
      assert name[d..d + 1] == ".";
    }
    forall k | d < k
      ensures !OccursAt(name, ".", k)
    {
      if k + 1 <= |name| {
        assert name[k] == ext[k - d - 1];
        assert name[k..k + 1] == [name[k]];
      }
    }
    assert name[..d] == stem;
  }
}
